=== FILE: README.md ===
# pypet core in Dafny

A model of the core of pypet, a command-line snippet manager. Users store
shell commands ("snippets") with a description, tags, an optional alias and
named parameters. Later they search, list, edit, copy or run them. The
model covers these parts:

- **Snippet model** (`models.dfy`, module `Models`). `Snippet.__post_init__`
  normalisation trims the command and description, cleans and deduplicates
  tags and fills in missing timestamps. It also covers the `Parameter`
  record and the `to_dict` / `from_dict` record form.
- **Templating** (`templating.dfy`, module `Templating`).
  - A left-to-right scan finds the placeholders `{name}`, `{name=default}`,
    `${name}` and `${name=default}`.
  - `get_all_parameters` returns the declared parameters followed by the
    ones discovered in the command.
  - `apply_parameters` resolves every parameter, then splices the values
    into the command.
- **Store** (`storage.py` → `storage.dfy`, module `Storage`). The snippets
  file is an ordered table from snippet ID to record, with add, get, list,
  search, update and delete. Each operation takes the loaded table and
  returns the table to save. The new ID and the current time are inputs.
- **Alias file** (`alias_manager.dfy`, module `AliasManager`).
  - A snippet becomes either a plain `alias` of its `shlex.quote`d command or
    a forwarding shell function.
  - The file is a fixed header followed by one block per aliased snippet.
  - Quoting is checked against a reader for POSIX single and double quotes
    (sections 2.2.2 and 2.2.3 of the POSIX.1-2017 Shell Command Language).
- **Command-line parsers** (`cli.dfy`, `execution.dfy`).
  - The `name[=default][:description],...` parameter specification and its
    one-line display.
  - The comma-separated tag options.
  - The `--param name=value` options of `copy` and `exec`, and the rule that
    decides when to prompt.
  - The dangerous-operator warning and the argument vector for the user's
    shell.

Supporting modules:

- `wrappers.dfy` holds `Option` and `Result`.
- `text.dfy` models the Python `str` operations the program uses.
- `ordered_map.dfy` models a Python `dict` as an insertion-ordered
  association list.

`pypet/models.py` at the modelled revision (70 lines) defines no `Parameter`, `alias`, `parameters`,
`get_all_parameters` or `apply_parameters`, although its callers use them
(`pypet/alias_manager.py:32`, `pypet/cli/execution_commands.py:140-147`).
Those parts are therefore modelled from what `tests/test_models.py` and
`tests/test_alias.py` assert about them. Where neither tests nor code pin a
detail down, the model makes a choice of its own, and the row of the member
concerned says so. One such choice is the record form: `pypet/models.py:43-70`
writes and reads neither `alias` nor `parameters`. The model's `Record` carries
both. `alias` follows `tests/test_alias.py:189-195` and `:209-210`. `parameters`
is this model's own choice, since no test puts a snippet's parameters through
`to_dict` and `from_dict`.

In these places the code behaves differently from what one might expect,
and the model follows the code:

- An empty command is accepted and stored as `""` (`pypet/models.py:27`,
  `tests/test_models.py:69-74`). It is not rejected.
- A placeholder name may be any non-empty text without `}` and `=`, for
  example `outer{inner` (`tests/test_models.py:362-366`). It is not limited
  to identifier characters.
- `get_snippet` rebuilds the snippet from its command, description and tags
  only. Alias and parameters are dropped, and both timestamps are those of
  the lookup (`pypet/storage.py:71-76`).
- `update_snippet` assigns the new fields without normalising them
  (`pypet/storage.py:111-119`). They are normalised only when the snippet is
  next read back through `from_dict`.
- `copy` and `exec` decide whether to prompt by comparing counts, not names
  (`pypet/cli/execution_commands.py:141`).

## Model

| member | source | states |
|---|---|---|
| Text.TrimUnique | pypet/models.py:27 | `strip()` is determined by its contract: a trimmed core between two runs of whitespace is the result |
| Text.TrimIdempotent | pypet/models.py:27 | stripping twice is stripping once |
| Text.SplitJoin | pypet/cli.py:39 | splitting a comma-join of comma-free parts gives the parts back |
| Text.SplitOnceAt | pypet/cli.py:41 | `split(sep, 1)` cuts at the first separator: text before it and everything after |
| OrderedMap.Put | pypet/storage.py:60 | `d[k] = v`: `k` now maps to `v`, other keys keep their values, an existing key keeps its position, a new key is appended, keys stay unique |
| OrderedMap.Remove | pypet/storage.py:129 | `del d[k]`: `k` is gone, every other key keeps its value, one entry fewer, the remaining entries keep their order, keys stay unique |
| OrderedMap.PutAll | pypet/cli.py:38-54 | assigning pairs in order: each key ends with the value of its last pair, untouched keys keep theirs, no key is lost (the order is stated by `PutAllOrder`) |
| OrderedMap.PutAllOrder | pypet/cli.py:50 | after assigning pairs in order, the keys are the old keys followed by the new ones, each at its first insertion |
| OrderedMap.PutAllFreshOrder | pypet/cli.py:29-54 | a dict filled from empty lists each key once, in order of its first pair |
| Models.NormalizeOptional | pypet/models.py:28 | `None` and `""` become `None`; anything else is stripped, so whitespace-only text becomes `""` |
| Models.NormalizeOptionalTwice | pypet/models.py:28 | cleaning twice is cleaning once, except that a `""` left by the first pass becomes `None` |
| Models.MakeParameter | tests/test_models.py:134-172 | a constructed parameter has a trimmed name and a stripped description, and a missing field stays `None`. Two parts are this model's choice, following the description rule of `pypet/models.py:28`, since no test passes an empty description or a padded default: the default is kept as given, unstripped, and a `""` description becomes `None` |
| Models.ParamRoundTrip | tests/test_models.py:175-188 | `Parameter.from_dict(to_dict(p))` is `p`, except that a `""` description comes back as `None` |
| Models.ParamsRoundTrip | tests/test_models.py:175-188 | a snippet's parameters written as dictionaries and read back keep their keys and order, and each parameter is unchanged up to a `""` description |
| OrderedMap.Dedup | pypet/models.py:33-35 | `dict.fromkeys` keeps every element exactly once and adds none |
| OrderedMap.DedupOrder | pypet/models.py:33-35 | the kept elements are in order of first occurrence |
| OrderedMap.DedupNoDuplicates | pypet/models.py:33-35 | a list without duplicates is unchanged |
| Models.CleanTagsMembers | pypet/models.py:32 | the cleaned tags are exactly the non-blank inputs, stripped |
| Models.NormalizeTags | pypet/models.py:23-35 | `None` becomes `[]`; the result has no blank, unstripped or repeated tag, and holds exactly the stripped non-blank inputs |
| Models.TagsFirstOccurrenceOrder | pypet/models.py:31-35 | the tags keep the order in which each first appears |
| Models.TagsIdempotent | pypet/models.py:31-35 | a clean tag list is left unchanged |
| Models.NewSnippet | pypet/models.py:20-41 | the constructor trims the command (a missing or empty one is `""`), cleans description, alias and tags, takes `now` for a missing `created_at` and `created_at` for a missing `updated_at`, keeps timestamps that were given, and keeps the parameters given (none when missing) |
| Models.NormalizeIdempotent | pypet/models.py:20-41 | constructing again from a constructed snippet's fields changes nothing, except that a `""` description or alias becomes `None` |
| Models.FromDict | pypet/models.py:53-70 | the command is stripped; description and alias are cleaned; stored tags are cleaned and deduplicated, and a record without `tags` reads as `[]`; stored parameters are rebuilt entry by entry, and none stored reads as none (reading `alias` follows `tests/test_alias.py:189-195`; reading `parameters` is this model's choice, since `pypet/models.py:53-70` reads neither); missing dates take `now`, with `updated_at` equal to `created_at`; stored dates are kept |
| Models.DictRoundTrip | pypet/models.py:43-70 | `from_dict(to_dict(s))` keeps command, tags, timestamps and parameter names; description, alias and parameter descriptions are kept unless they were `""`; that the record carries `alias` and `parameters` at all is this model's choice, since `pypet/models.py:43-51` writes neither |
| Storage.Load | pypet/storage.py:25-35 | a missing or unreadable file reads as the empty table |
| Storage.Created | pypet/storage.py:59 | the snippet `add_snippet` builds is normalised, has no alias or parameters, and carries `now` as both timestamps |
| Storage.Add | pypet/storage.py:45-63 | the new record is stored under the ID and other entries are untouched; an existing ID is overwritten in place, a new one is appended |
| Storage.GetSnippet | pypet/storage.py:65-76 | an unknown ID gives nothing; a known one gives the stored command, description and tags renormalised, with no alias or parameters and fresh timestamps |
| Storage.GetAfterAdd | pypet/storage.py:65-76 | reading back a snippet just added gives its normalised command, description and tags |
| Storage.ListSnippets | pypet/storage.py:78-81 | every entry in table order, each rebuilt through `from_dict` |
| Storage.ListAfterAdd | pypet/storage.py:78-81 | after adding under a new ID the listing is the old listing followed by the new snippet |
| Storage.Filter | pypet/storage.py:88-94 | an entry is kept exactly when its snippet matches |
| Storage.FilterAppend | pypet/storage.py:88-94 | filtering keeps the listing's order |
| Storage.Search | pypet/storage.py:83-96 | the results are exactly the listed entries whose lower-cased command, non-empty description or some tag contains the lower-cased query |
| Storage.SearchEmptyQuery | pypet/storage.py:83-96 | the empty query returns the whole listing |
| Storage.SearchIgnoresQueryCase | pypet/storage.py:85 | lower-casing the query first changes nothing |
| Storage.Update | pypet/storage.py:98-121 | an unknown ID gives `False` and an unchanged table; a known one gives `True` and replaces only the supplied fields, raw, sets `updated_at` to now and keeps `created_at` and whatever parameters the stored record holds (the model's record carries them; `pypet/models.py:43-51` writes none); other entries and the order are untouched |
| Storage.UpdateReread | pypet/storage.py:110-119 | the raw fields an update stores come back normalised when the snippet is read again |
| Storage.Delete | pypet/storage.py:123-131 | an unknown ID gives `False` and an unchanged table; a known one gives `True` and removes that entry only, the others keeping their order |
| Storage.DeleteUndoesAdd | pypet/storage.py:123-131 | deleting a snippet just added under a new ID restores the table |
| Templating.MatchAtSound | tests/test_models.py:228-246 | every match is a well-formed placeholder written out in full, `$` included |
| Templating.MatchAtComplete | tests/test_models.py:347-352 | every well-formed placeholder, with or without `$`, is matched where it starts and in full |
| Templating.EmptyBracesIgnored | tests/test_models.py:357-360 | `{}` is not a placeholder |
| Templating.SinglePlaceholder | tests/test_models.py:362-366 | one placeholder between two runs of text without `$` or `{` is the only placeholder found, at its own position |
| Templating.NestedBracesName | tests/test_models.py:362-366 | `echo {outer{inner}}` holds one placeholder, named `outer{inner` |
| Templating.NoClosingBrace | tests/test_models.py:368-371 | text without a closing brace holds no placeholder |
| Templating.EmptyInlineDefault | tests/test_models.py:355-371 | `echo {x=}` holds one placeholder with the inline default `""`, and with nothing supplied that empty default is its value; no test covers `{x=}`, so this is this model's choice |
| Templating.Scan | tests/test_models.py:228-246 | the placeholders found are in order, do not overlap, and each is the match at its start |
| Templating.ScanLeftmost | tests/test_models.py:228-246 | no placeholder is skipped: no uncovered position starts a match |
| Templating.AddDiscovered | tests/test_models.py:249-275 | the declared parameters stay first and unchanged; exactly the new placeholder names are added, with unique keys |
| Templating.Undeclared | tests/test_models.py:249-275 | the placeholder names, repeats included, that are not declared are exactly those kept |
| Templating.AddDiscoveredSnoc | tests/test_models.py:249-275 | the placeholders are taken one at a time, left to right |
| Templating.AddDiscoveredOrder | tests/test_models.py:249-275 | the keys are the declared ones followed by each undeclared placeholder name once, in order of first appearance |
| Templating.AddDiscoveredFirst | tests/test_models.py:228-246 | an undeclared placeholder text is the key of a parameter built by the constructor from its first placeholder: the name stripped, that placeholder's default, no description |
| Templating.GetAllParameters | tests/test_models.py:249-275 | `get_all_parameters` holds the declared parameters first and unchanged, then each undeclared placeholder name once, in order of first appearance |
| Templating.AllParametersLookup | tests/test_models.py:212-275 | declared metadata wins; an undeclared name maps to the parameter discovered at its first placeholder |
| Templating.SuppliedWins | tests/test_models.py:285-314 | a supplied non-empty value beats the default; a supplied empty value falls back to it; this model's choice, since neither the code nor the tests settle the empty case |
| Templating.Resolve | tests/test_models.py:317-330 | resolution succeeds exactly when every parameter has a value, and otherwise names the first parameter without one. An empty inline default (`{x=}`) is read as the default `""`, which counts as a value (see `EmptyInlineDefault`) |
| Templating.ResolveLookup | tests/test_models.py:285-314 | the resolved values answer each lookup with the parameter's value |
| Templating.SubstituteSpliced | tests/test_models.py:333-344 | the left-to-right substitution equals the reference splice: text between placeholders kept, each placeholder replaced whole |
| Templating.ApplyParameters | tests/test_models.py:285-344 | success exactly when every parameter has a value, and then the command with each whole placeholder replaced; otherwise the error names the first parameter without a value |
| Templating.ApplyFillsEveryPlaceholder | tests/test_models.py:317-330 | after success every placeholder had a value |
| Templating.ApplyWithoutParameters | tests/test_models.py:278-282 | a command without placeholders or declared parameters is returned as it is |
| AliasManager.QuoteRoundTrip | pypet/alias_manager.py:37 | the shell reads the quoted command back as exactly that command, embedded `'` included |
| AliasManager.AliasDefinition | pypet/alias_manager.py:22-40 | without parameters, `alias NAME=` followed by a word that reads back as the command; with parameters, exactly the forwarding function |
| AliasManager.FunctionIgnoresCommand | pypet/alias_manager.py:39-40 | the forwarding function never depends on the command |
| AliasManager.Block | pypet/alias_manager.py:59-72 | no alias gives no lines; otherwise an optional `# description` line, the definition and a blank line |
| AliasManager.BodyAppend | pypet/alias_manager.py:59-72 | the blocks follow the order of the snippets |
| AliasManager.BodyWithoutAliases | pypet/alias_manager.py:60-61 | snippets without an alias contribute nothing |
| AliasManager.AliasFileLines | pypet/alias_manager.py:51-57 | the file starts with the five header lines, the fourth `#   source PATH`, followed by the blocks |
| AliasManager.SourceInstruction | pypet/alias_manager.py:78-80 | the instruction is the `source` command followed by the path as its one argument |
| AliasManager.ContentLayout | pypet/alias_manager.py:75-76 | the written content is the joined header, then a newline and the joined blocks if there are any |
| Cli.Parts | pypet/cli.py:40-48 | an item is split at its first `:`, then the head at its first `=`, and the pieces reassemble to the item |
| Cli.PartsOfReassemble | pypet/cli.py:40-48 | pieces with no separator in the wrong place are recovered from their text |
| Cli.ColonEndsDefault | pypet/cli.py:40-41 | `url=http://x` gives default `http` and description `//x` |
| Cli.ParseItem | pypet/cli.py:50-54 | the key and the parameter name are the trimmed name; default and description are `None` when absent or empty, and stripped otherwise; a whitespace-only default becomes `""`, while a whitespace-only description becomes `None` |
| Cli.ParseParameters | pypet/cli.py:29-56 | `""` gives no parameters; otherwise each name maps to the parameter of its last item, keys are unique, exactly the item names are keys, and they are in order of first appearance |
| Cli.ParsedNamesAreKeys | pypet/cli.py:50-51 | every parsed parameter is stored under its own name |
| Cli.FormatEntry | pypet/cli.py:23-24 | an entry is `name=`, then the default or `<required>` when it is missing or empty, then ` (description)` when the description is present and non-empty |
| Cli.FormatParsedItem | pypet/cli.py:23-54 | a clean parsed item is displayed as written: `name=default:description` shows as `name=default (description)` |
| Cli.FormatParameters | pypet/cli.py:18-26 | the display is empty exactly when there are no parameters; a single parameter displays as its entry text; with `FormatAppend` this fixes the whole display |
| Cli.FormatAppend | pypet/cli.py:22-26 | the display lists the entries in order, separated by `", "` |
| Cli.NewTagList | pypet/cli.py:126 | `new`: a missing or empty option gives no tags, otherwise each comma-separated piece stripped; no tag contains a comma or surrounding whitespace |
| Cli.EditTagList | pypet/cli.py:196 | `edit`: a missing option means "leave unchanged", a given one (even empty) is split; a non-empty option gives the same tags as `new` (`pypet/cli.py:126`), while the empty option gives the single empty tag where `new` gives none |
| Cli.EditTagListRoundTrip | pypet/cli.py:196 | `edit` reads clean comma-free tags joined with commas back exactly, the single empty tag included |
| Cli.EditEmptyClearsTags | pypet/cli.py:196 | `edit --tags ""` replaces the tags, unlike a missing option, and the rebuilt snippet has no tags |
| Cli.TagListRoundTrip | pypet/cli.py:126 | clean comma-free tags joined with commas are read back as they were, unless the list is the single empty tag (whose join is the empty option) |
| Execution.ParamPair | pypet/cli/execution_commands.py:131-132 | an option without `=` is rejected; otherwise the pair is the text before the first `=` and the text after it, both stripped |
| Execution.ParseParamValues | pypet/cli/execution_commands.py:127-137 | the options parse exactly when all contain `=`; otherwise the first one without `=` is reported |
| Execution.ParamValuesAssigned | pypet/cli/execution_commands.py:128-132 | the options are assigned to the dictionary in order |
| Execution.ParamValuesLookup | pypet/cli/execution_commands.py:128-132 | each name holds the value of the last option naming it, and keys are unique |
| Execution.ParamOptionRoundTrip | pypet/cli/execution_commands.py:131-132 | a clean `name=value` option is read back as that name and value |
| Execution.LaterOptionWins | pypet/cli/execution_commands.py:132 | a later option for the same name overrides the earlier one |
| Execution.Merged | pypet/cli/execution_commands.py:139-143 | without a prompt the given values are used; with one, the answers override them |
| Execution.PrepareCommand | pypet/cli/execution_commands.py:127-150 | a malformed option stops everything, and the first one is reported |
| Execution.PrepareOutcome | pypet/cli/execution_commands.py:139-150 | with valid options the command is ready exactly when every parameter has a value after prompting; it is then the spliced template, otherwise the error names the first parameter without a value |
| Execution.EnoughValuesNeverPrompt | pypet/cli/execution_commands.py:140-143 | once as many values as parameters are given nothing is asked, whatever the names |
| Execution.PlainSnippetReady | pypet/cli/execution_commands.py:127-150 | a snippet without placeholders or parameters is used as stored, without a prompt |
| Execution.DangerousSimplified | pypet/cli/execution_commands.py:295-299 | the warning fires exactly when the command has one of ``; \| > < ` `` or contains `&&` or `$()` |
| Execution.Basename | pypet/cli/execution_commands.py:37 | `Path(p).name` has no `/` and is never `.` |
| Execution.BasenameOfPath | pypet/cli/execution_commands.py:37 | the name of `dir/n` is `n` |
| Execution.ShellInvocation | pypet/cli/execution_commands.py:35-56 | bash and zsh get `[shell, "-c", prelude + command]`; any other shell gets the command unchanged |
| Execution.ShellFoundByName | pypet/cli/execution_commands.py:41-52 | a shell installed as `.../bash` or `.../zsh` is recognised wherever it lives |
| Execution.DefaultShellRunsPlain | pypet/cli/execution_commands.py:36-56 | without `$SHELL` the command runs unchanged with `shell=True` |

## Left out

- File I/O is not modelled. This covers TOML encoding and decoding, opening and writing files, `mkdir` and the default paths. The store is a value, and the alias file is its sequence of lines and their joined text.
- Wall-clock time, the `strftime` snippet IDs and ISO-8601 dates are not modelled. The time and the ID are inputs, and timestamps are opaque naturals. A stored date that does not parse (`tests/test_models.py:101-110`) is not modelled: a date is either present or absent.
- `_prompt_for_parameters` is left out because it reads from the terminal. Its answers are an input of `Execution.PrepareCommand`.
- Process execution, the clipboard, `click.edit`, Rich tables, confirmation prompts, console output and the interactive selection loops are left out. They are I/O and user interface.
- `get_setup_instructions` and `check_if_sourced` are left out. They are fixed help text.
- `pypet/cli/__init__.py` is left out. It only re-exports.
- Alias support in the store is left out (`add_snippet(alias=...)`, `update_snippet(alias=...)`, `get_snippets_with_aliases`). `pypet/storage.py` at the modelled revision has no alias support, although `tests/test_alias.py` uses it.
- Saving parameters through the store is left out. `new` and `edit` (`pypet/cli.py:129-134`, `:202-208`) pass `parameters=` to `add_snippet` and `update_snippet`. Those methods take no such argument (`pypet/storage.py:45-50`, `:98-104`), so as written both commands raise `TypeError`. The model's `Storage.Add` and `Storage.Update` take no parameters either. A snippet added through the store has none, and an update keeps what the record holds.
- `Text.LowerChar`: `str.lower()` is modelled for ASCII letters only. Search is case-insensitive only for ASCII text.
- `Text.IsSpace` lists the characters `str.strip()` removes. No other Unicode processing is modelled.
- `Models.DictRoundTrip` does not state equality of whole parameter entries. It states key equality, plus equality of each parameter up to an empty description.
- `Execution.Merged` states the answers' override only for answers with unique keys. A prompt answers each name at most once.
- `Execution.Basename` models `Path.name` for POSIX paths only.
- A record with a missing `command` key or a wrongly typed field is not modelled. The `Record` datatype always has a command.

=== FILE: alias_manager.dfy ===
/**
 * Shell aliases for snippets: each snippet with an alias becomes either a
 * plain `alias` of its quoted command or, when the snippet has parameters,
 * a shell function that forwards its arguments to `pypet exec`. The alias
 * file is a fixed header followed by one block per aliased snippet.
 */
module AliasManager {
  import opened Wrappers
  import opened Text
  import opened Models
  import opened Templating

  // ---------------------------------------------------------------------
  // Quoting (Python's shlex.quote)

  /** The characters `shlex.quote` leaves unquoted: ASCII letters, digits and `_@%+=:,./-`. */
  predicate SafeChar(c: char) {
    || 'a' <= c <= 'z' || 'A' <= c <= 'Z' || '0' <= c <= '9'
    || c in "_@%+=:,./-"
  }

  predicate AllSafe(s: string) {
    forall i :: 0 <= i < |s| ==> SafeChar(s[i])
  }

  /** `s` with every `'` written as `'"'"'`: close the quotes, a double-quoted `'`, reopen. */
  function Escape(s: string): string
    decreases |s|
  {
    if |s| == 0 then ""
    else (if s[0] == '\'' then "'\"'\"'" else [s[0]]) + Escape(s[1..])
  }

  /** `shlex.quote(s)`. */
  function ShellQuote(s: string): string {
    if |s| == 0 then "''"
    else if AllSafe(s) then s
    else "'" + Escape(s) + "'"
  }

  /** Where a shell is while reading a word: outside quotes, inside `'...'` or inside `"..."`. */
  datatype QuoteMode = Unquoted | InSingle | InDouble

  /** `Some(p + x)` when `o` is `Some(x)`. */
  function Prepend(p: string, o: Option<string>): Option<string> {
    match o
    case None => None
    case Some(x) => Some(p + x)
  }

  /**
   * How a POSIX shell reads the rest `w` of a word, in `mode`, when the
   * word uses only unquoted safe characters, single quotes (section 2.2.2
   * of the POSIX.1-2017 Shell Command Language: everything up to the next
   * `'` is literal) and double quotes around text without `\`, `$` or a
   * backquote (section 2.2.3: such text is literal too). Any other word,
   * including one with an unterminated quote, is outside this fragment and
   * gives `None`.
   */
  function ReadWord(w: string, mode: QuoteMode): Option<string>
    decreases |w|
  {
    if |w| == 0 then (if mode == Unquoted then Some("") else None)
    else
      var c := w[0];
      match mode
      case Unquoted =>
        if c == '\'' then ReadWord(w[1..], InSingle)
        else if c == '"' then ReadWord(w[1..], InDouble)
        else if SafeChar(c) then Prepend([c], ReadWord(w[1..], Unquoted))
        else None
      case InSingle =>
        if c == '\'' then ReadWord(w[1..], Unquoted)
        else Prepend([c], ReadWord(w[1..], InSingle))
      case InDouble =>
        if c == '"' then ReadWord(w[1..], Unquoted)
        else if c == '\\' || c == '$' || c == '`' then None
        else Prepend([c], ReadWord(w[1..], InDouble))
  }

  /** The value the shell gives the word `w`. */
  function Unquote(w: string): Option<string> {
    ReadWord(w, Unquoted)
  }

  lemma {:induction false} ReadSafe(s: string)
    requires AllSafe(s)
    ensures ReadWord(s, Unquoted) == Some(s)
    decreases |s|
  {
    if |s| > 0 {
      assert SafeChar(s[0]);
      ReadSafe(s[1..]);
      assert [s[0]] + s[1..] == s;
    }
  }

  /** `'"'"'` inside single quotes closes them, reads a double-quoted `'` and reopens them. */
  lemma ReadQuoteEscape(y: string)
    ensures ReadWord("'\"'\"'" + y, InSingle) == Prepend("'", ReadWord(y, InSingle))
  {
    var w4 := "'" + y;
    var w3 := "\"" + w4;
    var w2 := "'" + w3;
    var w1 := "\"" + w2;
    var x := "'" + w1;
    assert x == "'\"'\"'" + y;
    assert x[1..] == w1 && w1[1..] == w2 && w2[1..] == w3 && w3[1..] == w4 && w4[1..] == y;
    assert ReadWord(w4, Unquoted) == ReadWord(y, InSingle);
    assert ReadWord(w3, InDouble) == ReadWord(w4, Unquoted);
    assert ReadWord(w2, InDouble) == Prepend("'", ReadWord(w3, InDouble));
    assert ReadWord(w1, Unquoted) == ReadWord(w2, InDouble);
  }

  /** Inside single quotes, an escaped text followed by the closing quote reads as the original. */
  lemma {:induction false} ReadEscaped(s: string)
    ensures ReadWord(Escape(s) + "'", InSingle) == Some(s)
    decreases |s|
  {
    var x := Escape(s) + "'";
    if |s| == 0 {
      assert x == "'";
      assert x[1..] == "";
    } else {
      var y := Escape(s[1..]) + "'";
      ReadEscaped(s[1..]);
      assert [s[0]] + s[1..] == s;
      if s[0] == '\'' {
        assert x == "'\"'\"'" + y;
        ReadQuoteEscape(y);
      } else {
        assert x == [s[0]] + y;
        assert x[1..] == y;
      }
    }
  }

  /** The shell reads a quoted command back as exactly that command. */
  lemma QuoteRoundTrip(s: string)
    ensures Unquote(ShellQuote(s)) == Some(s)
  {
    if |s| == 0 {
      var q := ShellQuote(s);
      assert q[0] == '\'' && q[1..] == "'" && "'"[0] == '\'' && "'"[1..] == "";
      assert ReadWord("'", InSingle) == ReadWord("", Unquoted);
      assert ReadWord(q, Unquoted) == ReadWord("'", InSingle);
    } else if AllSafe(s) {
      ReadSafe(s);
    } else {
      var q := ShellQuote(s);
      assert q == "'" + (Escape(s) + "'");
      assert q[1..] == Escape(s) + "'";
      ReadEscaped(s);
    }
  }

  // ---------------------------------------------------------------------
  // Definitions and the alias file

  /** The text that opens a plain alias definition. */
  function AliasPrefix(name: string): string {
    "alias " + name + "="
  }

  /** The shell function that forwards to `pypet exec`. */
  function ForwardingFunction(name: string, id: string): string {
    name + "() {\n    pypet exec " + id + " \"$@\"\n}"
  }

  /**
   * `_generate_alias_definition`: a plain alias of the quoted command when
   * `get_all_parameters()` is empty, otherwise the forwarding function.
   */
  function AliasDefinition(name: string, id: string, s: Snippet): (r: string)
    ensures |GetAllParameters(s)| == 0 ==>
      && |AliasPrefix(name)| <= |r| && r[..|AliasPrefix(name)|] == AliasPrefix(name)
      && Unquote(r[|AliasPrefix(name)|..]) == Some(s.command)
    ensures |GetAllParameters(s)| > 0 ==> r == ForwardingFunction(name, id)
  {
    if |GetAllParameters(s)| == 0 then
      var r := AliasPrefix(name) + ShellQuote(s.command);
      QuoteRoundTrip(s.command);
      assert r[|AliasPrefix(name)|..] == ShellQuote(s.command);
      r
    else
      ForwardingFunction(name, id)
  }

  /** With parameters, the definition never depends on the command. */
  lemma FunctionIgnoresCommand(name: string, id: string, s: Snippet, t: Snippet)
    requires |GetAllParameters(s)| > 0 && |GetAllParameters(t)| > 0
    ensures AliasDefinition(name, id, s) == AliasDefinition(name, id, t)
  {
  }

  /** `get_source_instruction`: the `source` command, then the path as its one argument. */
  function SourceInstruction(path: string): (r: string)
    ensures SplitOnce(r, ' ') == Found("source", path)
  {
    var r := "source " + path;
    assert r == "source" + [' '] + path;
    SplitOnceAt("source", ' ', path);
    r
  }

  /** The five lines every alias file starts with. */
  function Header(path: string): seq<string> {
    [ "# pypet aliases - Auto-generated file",
      "# Source this file in your shell profile (~/.bashrc, ~/.zshrc, etc.)",
      "# Add this line to your shell profile:",
      "#   " + SourceInstruction(path),
      "" ]
  }

  /** The snippet has an alias worth writing: present and not empty. */
  predicate HasAlias(s: Snippet) {
    s.alias.Some? && |s.alias.value| > 0
  }

  /** The lines one snippet contributes: a description comment if any, the definition, a blank line. */
  function Block(id: string, s: Snippet): (r: seq<string>)
    ensures !HasAlias(s) ==> r == []
    ensures HasAlias(s) ==> |r| >= 2 && r[|r| - 1] == "" && r[|r| - 2] == AliasDefinition(s.alias.value, id, s)
    ensures HasAlias(s) ==> (|r| == 3 <==> s.description.Some? && |s.description.value| > 0)
    ensures HasAlias(s) && |r| == 3 ==> r[0] == "# " + s.description.value
  {
    if !HasAlias(s) then []
    else if s.description.Some? && |s.description.value| > 0 then
      ["# " + s.description.value, AliasDefinition(s.alias.value, id, s), ""]
    else
      [AliasDefinition(s.alias.value, id, s), ""]
  }

  /** The blocks of all snippets, in order. */
  function Body(xs: seq<(string, Snippet)>): seq<string>
    decreases |xs|
  {
    if |xs| == 0 then [] else Block(xs[0].0, xs[0].1) + Body(xs[1..])
  }

  /** Blocks follow the order of the snippets: the body of a concatenation is the concatenation of bodies. */
  lemma {:induction false} BodyAppend(xs: seq<(string, Snippet)>, ys: seq<(string, Snippet)>)
    ensures Body(xs + ys) == Body(xs) + Body(ys)
    decreases |xs|
  {
    if |xs| == 0 {
      assert xs + ys == ys;
    } else {
      var b := Block(xs[0].0, xs[0].1);
      assert (xs + ys)[0] == xs[0] && (xs + ys)[1..] == xs[1..] + ys;
      assert Body(xs + ys) == b + Body(xs[1..] + ys);
      BodyAppend(xs[1..], ys);
      assert b + (Body(xs[1..]) + Body(ys)) == b + Body(xs[1..]) + Body(ys);
    }
  }

  /** Snippets without an alias contribute nothing. */
  lemma {:induction false} BodyWithoutAliases(xs: seq<(string, Snippet)>)
    requires forall i :: 0 <= i < |xs| ==> !HasAlias(xs[i].1)
    ensures Body(xs) == []
    decreases |xs|
  {
    if |xs| > 0 {
      assert !HasAlias(xs[0].1);
      BodyWithoutAliases(xs[1..]);
    }
  }

  /** The lines of the alias file. */
  function AliasFileLines(path: string, xs: seq<(string, Snippet)>): (r: seq<string>)
    ensures |r| >= 5 && r[..5] == Header(path)
    ensures r[3] == "#   source " + path
    ensures r[5..] == Body(xs)
  {
    var h := Header(path);
    HeaderSourceLine(path);
    ConcatSlices(h, Body(xs));
    h + Body(xs)
  }

  /** The header has five lines, the fourth naming the file to source. */
  lemma HeaderSourceLine(path: string)
    ensures |Header(path)| == 5 && Header(path)[3] == "#   source " + path
  {
    var si := SourceInstruction(path);
    assert si == "source " + path;
    CommentSource();
    assert "#   " + si == ("#   " + "source ") + path;
  }

  lemma CommentSource()
    ensures "#   " + "source " == "#   source "
  {
  }

  /** A concatenation split where it was joined. */
  lemma ConcatSlices<T>(h: seq<T>, b: seq<T>)
    ensures (h + b)[..|h|] == h && (h + b)[|h|..] == b
  {
  }

  /**
   * `update_aliases_file`: the whole new content of the alias file (it is
   * opened for writing, so nothing of the old content survives).
   */
  function AliasFileContent(path: string, xs: seq<(string, Snippet)>): string {
    Join(AliasFileLines(path, xs), "\n")
  }

  /** The file is the joined header, then (if any snippet has an alias) a newline and the joined blocks. */
  lemma ContentLayout(path: string, xs: seq<(string, Snippet)>)
    ensures AliasFileContent(path, xs)
         == Join(Header(path), "\n") + (if |Body(xs)| == 0 then "" else "\n" + Join(Body(xs), "\n"))
  {
    JoinThen(Header(path), Body(xs), "\n");
  }
}

=== FILE: cli.dfy ===
/**
 * The small text parsers of the command-line layer: the parameter
 * specification `name[=default][:description],...`, its one-line display,
 * and the comma-separated tag option of `new` and `edit`.
 */
module Cli {
  import opened Wrappers
  import opened Text
  import opened OrderedMap
  import opened Models

  // ---------------------------------------------------------------------
  // _parse_parameters

  /** The raw pieces of one item, before any trimming. */
  datatype ItemParts = ItemParts(name: string, default: Option<string>, description: Option<string>)

  /** The item text that has the given pieces. */
  function Reassemble(p: ItemParts): string {
    p.name
      + (if p.default.Some? then "=" + p.default.value else "")
      + (if p.description.Some? then ":" + p.description.value else "")
  }

  /** Pieces that `Parts` can produce: the first `:` ends the head, and the first `=` in the head ends the name. */
  predicate Separable(p: ItemParts) {
    && ':' !in p.name && '=' !in p.name
    && (p.default.Some? ==> ':' !in p.default.value)
  }

  /** The text with an optional tail put back after a separator. */
  function Rejoin(head: string, sep: char, tail: Option<string>): string {
    head + (if tail.Some? then [sep] + tail.value else "")
  }

  /**
   * `s.split(sep, 1)` when `sep in s`, else `s` and `None`: the text before
   * the first separator, and the rest after it if there is one.
   */
  function Cut(s: string, sep: char): (r: (string, Option<string>))
    ensures sep !in r.0 && Rejoin(r.0, sep, r.1) == s
  {
    match SplitOnce(s, sep)
    case NotFound => (s, None)
    case Found(b, a) => (b, Some(a))
  }

  /** A prefix of a text without `c` is without `c` too. */
  lemma NotInPart(head: string, sep: char, tail: Option<string>, c: char)
    requires c !in Rejoin(head, sep, tail)
    ensures c !in head && (tail.Some? ==> c !in tail.value)
  {
    var s := Rejoin(head, sep, tail);
    assert forall k :: 0 <= k < |head| ==> head[k] == s[k];
    if tail.Some? {
      assert forall k :: 0 <= k < |tail.value| ==> tail.value[k] == s[|head| + 1 + k];
    }
  }

  /**
   * One item split as `_parse_parameters` splits it: at the first `:`
   * into head and description, then the head at its first `=` into name
   * and default. Splitting loses nothing.
   */
  function Parts(item: string): (r: ItemParts)
    ensures Separable(r)
    ensures Reassemble(r) == item
  {
    var (head, description) := Cut(item, ':');
    var (name, default) := Cut(head, '=');
    NotInPart(name, '=', default, ':');
    assert Reassemble(ItemParts(name, default, description)) == Rejoin(Rejoin(name, '=', default), ':', description);
    ItemParts(name, default, description)
  }

  /** An optional tail after a separator-free text is cut off exactly. */
  lemma SplitOptional(a: string, sep: char, o: Option<string>)
    requires sep !in a
    ensures Cut(Rejoin(a, sep, o), sep) == (a, o)
  {
    if o.Some? {
      assert Rejoin(a, sep, o) == a + [sep] + o.value;
      SplitOnceAt(a, sep, o.value);
    } else {
      assert Rejoin(a, sep, o) == a;
    }
  }

  /** Joining texts without `c` around another separator gives a text without `c`. */
  lemma NotInRejoin(head: string, sep: char, tail: Option<string>, c: char)
    requires c != sep && c !in head && (tail.Some? ==> c !in tail.value)
    ensures c !in Rejoin(head, sep, tail)
  {
  }

  /** Parts with no separator in the wrong place are recovered from their text: `Parts` is a bijection. */
  lemma PartsOfReassemble(p: ItemParts)
    requires Separable(p)
    ensures Parts(Reassemble(p)) == p
  {
    var head := Rejoin(p.name, '=', p.default);
    var item := Rejoin(head, ':', p.description);
    assert Reassemble(p) == item;
    NotInRejoin(p.name, '=', p.default, ':');
    SplitOptional(head, ':', p.description);
    SplitOptional(p.name, '=', p.default);
  }

  /**
   * Because the description is split off first, a `:` meant for the
   * default ends it: `url=http://x` declares `url` with default `http`
   * and description `//x`.
   */
  lemma ColonEndsDefault()
    ensures Parts("url=http://x") == ItemParts("url", Some("http"), Some("//x"))
  {
    var p := ItemParts("url", Some("http"), Some("//x"));
    assert Reassemble(p) == "url" + "=http" + "://x";
    assert "url" + "=http" + "://x" == "url=http://x";
    PartsOfReassemble(p);
  }

  /** One item read into its map key and `Parameter`. */
  function ParseItem(item: string): (r: (string, Parameter))
    ensures r.0 == r.1.name == Trim(Parts(item).name)
    ensures r.1.default == NormalizeOptional(Parts(item).default)
    ensures r.1.description == NormalizeOptional(NormalizeOptional(Parts(item).description))
    ensures IsNormalParameter(r.1)
  {
    var p := Parts(item);
    var name := Trim(p.name);
    (name, MakeParameter(name, NormalizeOptional(p.default), NormalizeOptional(p.description)))
  }

  /** The items of a specification, read in order. */
  function ParseItems(items: seq<string>): (r: seq<(string, Parameter)>)
    ensures |r| == |items|
    ensures forall i :: 0 <= i < |items| ==> r[i] == ParseItem(items[i])
  {
    seq(|items|, i requires 0 <= i < |items| => ParseItem(items[i]))
  }

  /**
   * `_parse_parameters`: the empty string declares nothing; otherwise each
   * comma-separated item declares the parameter under its trimmed name,
   * a later item replacing an earlier one with the same name.
   */
  function ParseParameters(spec: string): (r: Entries<string, Parameter>)
    ensures |spec| == 0 ==> r == []
    ensures UniqueKeys(r)
    ensures |spec| > 0 ==> forall k :: Get(r, k) == LastValue(ParseItems(Split(spec, ',')), k)
    ensures |spec| > 0 ==> forall k :: HasKey(r, k) <==> k in Keys(ParseItems(Split(spec, ',')))
    ensures |spec| > 0 ==> Keys(r) == Dedup(Keys(ParseItems(Split(spec, ','))))
  {
    if |spec| == 0 then []
    else
      var items := ParseItems(Split(spec, ','));
      PutAllFresh(items);
      PutAllFreshOrder(items);
      PutAll([], items)
  }

  /** The value of the last pair for a key is one of the pairs. */
  lemma {:induction false} LastValueIn<K, V>(kvs: seq<(K, V)>, k: K)
    requires LastValue(kvs, k).Some?
    ensures (k, LastValue(kvs, k).value) in kvs
    decreases |kvs|
  {
    if kvs[|kvs| - 1].0 != k {
      LastValueIn(kvs[..|kvs| - 1], k);
    }
  }

  /** Whatever item last declared a name, the parameter it declares carries that name. */
  lemma LastItemNamed(xs: seq<string>, k: string)
    requires LastValue(ParseItems(xs), k).Some?
    ensures LastValue(ParseItems(xs), k).value.name == k
    ensures IsNormalParameter(LastValue(ParseItems(xs), k).value)
  {
    var items := ParseItems(xs);
    var v := LastValue(items, k).value;
    LastValueIn(items, k);
    var i :| 0 <= i < |items| && items[i] == (k, v);
    assert items[i] == ParseItem(xs[i]);
  }

  /** Every parsed parameter is stored under its own name and has the constructor's shape. */
  lemma ParsedNamesAreKeys(spec: string, k: string)
    requires HasKey(ParseParameters(spec), k)
    ensures Get(ParseParameters(spec), k).value.name == k
    ensures IsNormalParameter(Get(ParseParameters(spec), k).value)
  {
    assert |spec| > 0;
    LastItemNamed(Split(spec, ','), k);
  }

  // ---------------------------------------------------------------------
  // _format_parameters

  /** `name=default (description)`, with `<required>` for a missing or empty default. */
  function FormatEntry(e: (string, Parameter)): (r: string)
    ensures |r| > |e.0| && r[..|e.0| + 1] == e.0 + "="
    ensures r == e.0 + "="
      + (if e.1.default.Some? && |e.1.default.value| > 0 then e.1.default.value else "<required>")
      + (if e.1.description.Some? && |e.1.description.value| > 0 then " (" + e.1.description.value + ")" else "")
  {
    var p := e.1;
    var shown := if p.default.Some? && |p.default.value| > 0 then p.default.value else "<required>";
    var note := if p.description.Some? && |p.description.value| > 0 then " (" + p.description.value + ")" else "";
    var r := e.0 + "=" + shown + note;
    assert r == (e.0 + "=") + (shown + note);
    r
  }

  /**
   * Displaying a parsed item shows what was written: a clean item
   * `name=default:description` is shown as `name=default (description)`,
   * an absent or empty default as `<required>`, and an absent or empty
   * description not at all.
   */
  lemma FormatParsedItem(p: ItemParts)
    requires Separable(p) && IsTrimmed(p.name)
    requires p.default.Some? ==> IsTrimmed(p.default.value)
    requires p.description.Some? ==> IsTrimmed(p.description.value)
    ensures FormatEntry(ParseItem(Reassemble(p)))
         == p.name + "="
          + (if p.default.Some? && |p.default.value| > 0 then p.default.value else "<required>")
          + (if p.description.Some? && |p.description.value| > 0 then " (" + p.description.value + ")" else "")
  {
    PartsOfReassemble(p);
    TrimOfTrimmed(p.name);
    CleanedTwice(p.default);
    CleanedTwice(p.description);
  }

  function FormatEntries(ps: Entries<string, Parameter>): (r: seq<string>)
    ensures |r| == |ps|
    ensures forall i :: 0 <= i < |ps| ==> r[i] == FormatEntry(ps[i])
  {
    seq(|ps|, i requires 0 <= i < |ps| => FormatEntry(ps[i]))
  }

  /** `_format_parameters`: the entries joined with `", "`; empty exactly when there is nothing to show. */
  function FormatParameters(ps: Option<Entries<string, Parameter>>): (r: string)
    ensures |r| == 0 <==> ps.None? || |ps.value| == 0
    ensures ps.Some? && |ps.value| == 1 ==> r == FormatEntry(ps.value[0])
  {
    if ps.None? || |ps.value| == 0 then ""
    else
      var parts := FormatEntries(ps.value);
      JoinStartsWithFirst(parts, ", ");
      Join(parts, ", ")
  }

  lemma JoinStartsWithFirst(parts: seq<string>, sep: string)
    requires |parts| > 0
    ensures |Join(parts, sep)| >= |parts[0]|
  {
  }

  /** The display lists the entries in order: formatting distributes over concatenation. */
  lemma FormatAppend(a: Entries<string, Parameter>, b: Entries<string, Parameter>)
    requires |a| > 0 && |b| > 0
    ensures FormatParameters(Some(a + b)) == FormatParameters(Some(a)) + ", " + FormatParameters(Some(b))
  {
    assert FormatEntries(a + b) == FormatEntries(a) + FormatEntries(b);
    JoinAppend(FormatEntries(a), FormatEntries(b), ", ");
  }

  // ---------------------------------------------------------------------
  // Tag options

  /** `new`: a missing or empty option gives no tags; otherwise every comma-separated piece, trimmed. */
  function NewTagList(tags: Option<string>): (r: seq<string>)
    ensures tags.None? || |tags.value| == 0 ==> r == []
    ensures tags.Some? && |tags.value| > 0 ==> r == TrimAll(Split(tags.value, ','))
    ensures forall i :: 0 <= i < |r| ==> IsTrimmed(r[i]) && ',' !in r[i]
  {
    if tags.None? || |tags.value| == 0 then [] else TrimAll(Split(tags.value, ','))
  }

  /**
   * `edit`: a missing option means "leave the tags alone"; a given one is
   * split even when empty. A non-empty option gives the tags `new` would;
   * the empty option gives the one empty tag, where `new` gives none.
   */
  function EditTagList(tags: Option<string>): (r: Option<seq<string>>)
    ensures r.None? <==> tags.None?
    ensures r.Some? ==> |r.value| >= 1 && r.value == TrimAll(Split(tags.value, ','))
    ensures tags.Some? && |tags.value| > 0 ==> r == Some(NewTagList(tags))
    ensures tags == Some("") ==> r == Some([""])
  {
    if tags.None? then None
    else
      var ps := Split(tags.value, ',');
      if |tags.value| == 0 then
        JoinEmpty(ps, [',']);
        assert ps == [""];
        TrimOfTrimmed("");
        assert TrimAll(ps) == [Trim("")];
        Some(TrimAll(ps))
      else
        Some(TrimAll(ps))
  }

  /** Tags written out joined with commas are read back by `edit` as they were; the single empty tag included. */
  lemma EditTagListRoundTrip(ts: seq<string>)
    requires |ts| >= 1
    requires forall i :: 0 <= i < |ts| ==> IsTrimmed(ts[i]) && ',' !in ts[i]
    ensures EditTagList(Some(Join(ts, ","))) == Some(ts)
  {
    assert "," == [','];
    SplitJoin(ts, ',');
    TrimmedAll(ts);
  }

  /**
   * `edit --tags ""` replaces the tags rather than leaving them alone, and
   * once the snippet is rebuilt the one empty tag is dropped: the tags are
   * cleared.
   */
  lemma EditEmptyClearsTags()
    ensures EditTagList(Some("")).Some?
    ensures NormalizeTags(EditTagList(Some(""))) == []
  {
    var r := EditTagList(Some(""));
    assert r == Some([""]);
    TrimOfTrimmed("");
    assert TrimAll([""]) == [""];
  }

  /** Trimming never introduces a comma: what `Trim` keeps is a slice of its input. */
  lemma TrimKeepsOut(s: string, c: char)
    requires c !in s
    ensures c !in Trim(s)
  {
    TrimShape(s);
  }

  /** Tags written out joined with commas are read back as they were. */
  lemma TagListRoundTrip(ts: seq<string>)
    requires |ts| >= 1 && ts != [""]
    requires forall i :: 0 <= i < |ts| ==> IsTrimmed(ts[i]) && ',' !in ts[i]
    ensures NewTagList(Some(Join(ts, ","))) == ts
  {
    var text := Join(ts, [',']);
    assert "," == [','];
    JoinEmpty(ts, [',']);
    SplitJoin(ts, ',');
    assert NewTagList(Some(text)) == TrimAll(Split(text, ','));
    TrimmedAll(ts);
  }

  /** Trimming parts that are already trimmed changes nothing. */
  lemma TrimmedAll(ts: seq<string>)
    requires forall i :: 0 <= i < |ts| ==> IsTrimmed(ts[i])
    ensures TrimAll(ts) == ts
  {
    forall i | 0 <= i < |ts| ensures Trim(ts[i]) == ts[i] {
      TrimOfTrimmed(ts[i]);
    }
  }
}

=== FILE: execution.dfy ===
/**
 * What `copy` and `exec` do between choosing a snippet and handing the
 * command on: read the `--param name=value` options, decide whether to
 * prompt, apply the values to the template, flag shell metacharacters,
 * and build the process invocation for the user's shell.
 */
module Execution {
  import opened Wrappers
  import opened Text
  import opened OrderedMap
  import opened Models
  import opened Templating

  // ---------------------------------------------------------------------
  // --param options

  /** `p.split("=", 1)` unpacked into two names, both stripped; `None` where the unpacking raises `ValueError`. */
  function ParamPair(opt: string): (r: Option<(string, string)>)
    ensures r.None? <==> '=' !in opt
    ensures r.Some? ==> IsTrimmed(r.value.0) && IsTrimmed(r.value.1)
    ensures r.Some? ==> var h := SplitOnce(opt, '=');
      r.value == (Trim(h.before), Trim(h.after))
  {
    match SplitOnce(opt, '=')
    case NotFound => None
    case Found(b, a) => Some((Trim(b), Trim(a)))
  }

  /** The option has the `name=value` form. */
  predicate Assigns(opt: string) {
    '=' in opt
  }

  /** Every option has the `name=value` form. */
  predicate AllAssign(opts: seq<string>) {
    forall i :: 0 <= i < |opts| ==> Assigns(opts[i])
  }

  /** The pair of an option, or a placeholder pair for an option without `=` (never used). */
  function PairOf(opt: string): (string, string) {
    ParamPair(opt).GetOr(("", ""))
  }

  /** The pairs of a run of options, in order. */
  function Pairs(opts: seq<string>): (r: seq<(string, string)>)
    ensures |r| == |opts|
    decreases |opts|
  {
    if |opts| == 0 then [] else Pairs(opts[..|opts| - 1]) + [PairOf(opts[|opts| - 1])]
  }

  /** Option `i` is the first one without an `=`. */
  predicate FirstInvalid(opts: seq<string>, i: int) {
    0 <= i < |opts| && !Assigns(opts[i]) && forall j :: 0 <= j < i ==> Assigns(opts[j])
  }

  /** Whether all options assign is decided option by option. */
  lemma AllAssignSnoc(opts: seq<string>)
    requires |opts| > 0
    ensures AllAssign(opts) <==> AllAssign(opts[..|opts| - 1]) && Assigns(opts[|opts| - 1])
  {
    var front := opts[..|opts| - 1];
    assert forall j :: 0 <= j < |front| ==> front[j] == opts[j];
  }

  /** The first malformed option of a prefix is the first one of the whole run. */
  lemma FirstInvalidSnoc(opts: seq<string>, i: int)
    requires |opts| > 0
    requires FirstInvalid(opts[..|opts| - 1], i) || (AllAssign(opts[..|opts| - 1]) && i == |opts| - 1 && !Assigns(opts[i]))
    ensures FirstInvalid(opts, i)
  {
    var front := opts[..|opts| - 1];
    assert forall j :: 0 <= j < |front| ==> front[j] == opts[j];
  }

  /**
   * The `param_values` dictionary of `copy` and `exec`: the options are
   * assigned in order, and the first one without `=` stops the command
   * (its text is what the error message shows).
   */
  function ParseParamValues(opts: seq<string>): (r: Result<Entries<string, string>, string>)
    ensures r.Success? <==> AllAssign(opts)
    ensures r.Failure? ==> exists i :: FirstInvalid(opts, i) && r.error == opts[i]
    decreases |opts|
  {
    if |opts| == 0 then Success([])
    else
      var front := opts[..|opts| - 1];
      var last := opts[|opts| - 1];
      AllAssignSnoc(opts);
      match ParseParamValues(front)
      case Failure(e) =>
        var i :| FirstInvalid(front, i) && e == front[i];
        FirstInvalidSnoc(opts, i);
        assert e == opts[i];
        Failure(e)
      case Success(m) =>
        match ParamPair(last)
        case None =>
          FirstInvalidSnoc(opts, |opts| - 1);
          Failure(last)
        case Some(p) =>
          Success(Put(m, p.0, p.1))
  }

  /** The options are assigned in order, as `PutAll` assigns pairs. */
  lemma {:induction false} ParamValuesAssigned(opts: seq<string>)
    requires AllAssign(opts)
    ensures ParseParamValues(opts).value == PutAll([], Pairs(opts))
    decreases |opts|
  {
    if |opts| > 0 {
      var front := opts[..|opts| - 1];
      assert AllAssign(front) by {
        forall j | 0 <= j < |front| ensures Assigns(front[j]) {
          assert front[j] == opts[j];
        }
      }
      ParamValuesAssigned(front);
      assert Pairs(opts)[..|opts| - 1] == Pairs(front);
    }
  }

  /** The dictionary holds, for each name, the value of the last option that names it. */
  lemma ParamValuesLookup(opts: seq<string>, k: string)
    requires ParseParamValues(opts).Success?
    ensures UniqueKeys(ParseParamValues(opts).value)
    ensures Get(ParseParamValues(opts).value, k) == LastValue(Pairs(opts), k)
  {
    ParamValuesAssigned(opts);
  }

  /** A clean `name=value` option is read back as that name and value. */
  lemma ParamOptionRoundTrip(name: string, value: string)
    requires '=' !in name && IsTrimmed(name) && IsTrimmed(value)
    ensures ParamPair(name + "=" + value) == Some((name, value))
  {
    assert name + "=" + value == name + ['='] + value;
    SplitOnceAt(name, '=', value);
    TrimOfTrimmed(name);
    TrimOfTrimmed(value);
  }

  /** The last option for a name decides its value: `--param n=a --param n=b` gives `b`. */
  lemma LaterOptionWins(opts: seq<string>, name: string, value: string)
    requires '=' !in name && IsTrimmed(name) && IsTrimmed(value)
    requires ParseParamValues(opts).Success?
    ensures ParseParamValues(opts + [name + "=" + value]) == Success(Put(ParseParamValues(opts).value, name, value))
  {
    var o := name + "=" + value;
    ParamOptionRoundTrip(name, value);
    assert (opts + [o])[..|opts|] == opts;
    assert Assigns(o);
  }

  // ---------------------------------------------------------------------
  // From options to the final command

  /** How `copy` or `exec` ends before the command is used. */
  datatype Prepared =
    | InvalidParam(option: string)
    | Failed(error: TemplateError)
    | Ready(command: string, prompted: bool)

  /** The prompt runs when the snippet has parameters and fewer values were given than it has parameters. */
  predicate PromptNeeded(s: Snippet, vals: Entries<string, string>) {
    |GetAllParameters(s)| > 0 && |vals| < |GetAllParameters(s)|
  }

  /** The values used: the prompt's answers, when the prompt runs, update the given ones. */
  function Merged(s: Snippet, vals: Entries<string, string>, answers: Entries<string, string>): (r: Entries<string, string>)
    ensures !PromptNeeded(s, vals) ==> r == vals
    ensures PromptNeeded(s, vals) && UniqueKeys(answers) ==>
      forall k :: Get(r, k) == (if HasKey(answers, k) then Get(answers, k) else Get(vals, k))
  {
    if PromptNeeded(s, vals) then
      var r := PutAll(vals, answers);
      forall k | UniqueKeys(answers) ensures Get(r, k) == (if HasKey(answers, k) then Get(answers, k) else Get(vals, k)) {
        LastValueGet(answers, k);
      }
      r
    else vals
  }

  /** In a dictionary the last pair for a key is its only pair. */
  lemma LastValueGet<K(!new), V>(m: Entries<K, V>, k: K)
    ensures LastValue(m, k).Some? <==> HasKey(m, k)
    ensures UniqueKeys(m) ==> LastValue(m, k) == Get(m, k)
  {
    var r := PutAll([], m);
    assert forall k' :: HasKey(r, k') <==> k' in Keys(m);
    if UniqueKeys(m) && HasKey(m, k) {
      var i := IndexOf(m, k);
      LastValueAt(m, i);
    }
  }

  /** With unique keys, the last pair for the key of entry `i` is entry `i`. */
  lemma {:induction false} LastValueAt<K, V>(m: Entries<K, V>, i: nat)
    requires UniqueKeys(m) && i < |m|
    ensures LastValue(m, m[i].0) == Some(m[i].1)
    decreases |m|
  {
    if i < |m| - 1 {
      assert m[..|m| - 1][i] == m[i];
      LastValueAt(m[..|m| - 1], i);
    }
  }

  /**
   * Parameter handling shared by `copy` and `exec`: parse the options,
   * prompt when too few values were given (the prompt's answers are an
   * input here), then apply the values to the snippet's template.
   */
  function PrepareCommand(s: Snippet, opts: seq<string>, answers: Entries<string, string>): (r: Prepared)
    ensures r.InvalidParam? <==> !AllAssign(opts)
    ensures r.InvalidParam? ==> exists i :: FirstInvalid(opts, i) && r.option == opts[i]
  {
    match ParseParamValues(opts)
    case Failure(opt) => InvalidParam(opt)
    case Success(vals) =>
      match ApplyParameters(s, Merged(s, vals, answers))
      case Failure(e) => Failed(e)
      case Success(c) => Ready(c, PromptNeeded(s, vals))
  }

  /**
   * With well-formed options the command is ready exactly when every
   * parameter has a value after prompting; it is then the template with
   * every placeholder replaced, and otherwise the error names the first
   * parameter left without a value.
   */
  lemma PrepareOutcome(s: Snippet, opts: seq<string>, answers: Entries<string, string>)
    requires AllAssign(opts)
    ensures var vals := ParseParamValues(opts).value;
      var used := Merged(s, vals, answers);
      var all := GetAllParameters(s);
      var r := PrepareCommand(s, opts, answers);
      && (r.Ready? <==> forall k :: 0 <= k < |all| ==> ValueFor(all[k].0, all[k].1, used).Some?)
      && (r.Ready? ==> r.prompted == PromptNeeded(s, vals)
                       && r.command == Spliced(s.command, 0, Placeholders(s.command), all, used))
      && (r.Failed? ==> exists k :: FirstMissing(all, used, k) && r.error == MissingValue(all[k].0))
  {
  }

  /**
   * The prompt is triggered by counting, not by names: once as many values
   * are given as the snippet has parameters, nothing is asked, even if the
   * values are for other names, and a parameter without a value or default
   * then fails.
   */
  lemma EnoughValuesNeverPrompt(s: Snippet, opts: seq<string>, a1: Entries<string, string>, a2: Entries<string, string>)
    requires ParseParamValues(opts).Success?
    requires |ParseParamValues(opts).value| >= |GetAllParameters(s)|
    ensures PrepareCommand(s, opts, a1) == PrepareCommand(s, opts, a2)
    ensures PrepareCommand(s, opts, a1).Ready? ==> !PrepareCommand(s, opts, a1).prompted
  {
  }

  /** A snippet with neither placeholders nor declared parameters is used exactly as stored. */
  lemma PlainSnippetReady(s: Snippet, opts: seq<string>, answers: Entries<string, string>)
    requires Placeholders(s.command) == [] && s.parameters == []
    requires AllAssign(opts)
    ensures PrepareCommand(s, opts, answers) == Ready(s.command, false)
  {
    assert GetAllParameters(s) == [];
    ApplyWithoutParameters(s, ParseParamValues(opts).value);
  }

  // ---------------------------------------------------------------------
  // The confirmation check of `exec`

  /** The substrings `exec` treats as potentially dangerous. */
  const DangerousPatterns: seq<string> := [";", "&&", "||", "|", ">", ">>", "<", "`", "$()"]

  /** Some dangerous pattern occurs in the command. */
  predicate IsDangerous(c: string) {
    exists i :: 0 <= i < |DangerousPatterns| && Contains(c, DangerousPatterns[i])
  }

  /** The characters that on their own make a command dangerous. */
  predicate DangerousChar(x: char) {
    x == ';' || x == '|' || x == '>' || x == '<' || x == '`'
  }

  /** A one-character pattern occurs exactly when the character does. */
  lemma ContainsChar(c: string, x: char)
    ensures Contains(c, [x]) <==> x in c
  {
    if x in c {
      var j :| 0 <= j < |c| && c[j] == x;
      assert c[j..j + 1] == [x];
      assert OccursAt(c, [x], j);
    }
    if Contains(c, [x]) {
      var j :| 0 <= j <= |c| - 1 && OccursAt(c, [x], j);
      assert c[j] == c[j..j + 1][0];
    }
  }

  /** A pattern that starts with `x` only occurs where `x` does. */
  lemma ContainsHead(c: string, x: char, t: string)
    requires Contains(c, [x] + t)
    ensures x in c
  {
    var j :| 0 <= j <= |c| - |[x] + t| && OccursAt(c, [x] + t, j);
    assert c[j] == c[j..j + |[x] + t|][0];
  }

  /**
   * The pattern list is redundant: `||` and `>>` add nothing to `|` and
   * `>`, so a command is flagged exactly when it has one of `; | > < ``
   * or contains `&&` or `$()`.
   */
  lemma DangerousSimplified(c: string)
    ensures IsDangerous(c) <==>
      (exists j :: 0 <= j < |c| && DangerousChar(c[j])) || Contains(c, "&&") || Contains(c, "$()")
  {
    var ps := DangerousPatterns;
    assert ps[0] == [';'] && ps[3] == ['|'] && ps[4] == ['>'] && ps[6] == ['<'] && ps[7] == ['`'];
    assert ps[1] == "&&" && ps[8] == "$()";
    assert ps[2] == ['|'] + "|" && ps[5] == ['>'] + ">";
    ContainsChar(c, ';');
    ContainsChar(c, '|');
    ContainsChar(c, '>');
    ContainsChar(c, '<');
    ContainsChar(c, '`');
    if Contains(c, ps[2]) {
      ContainsHead(c, '|', "|");
    }
    if Contains(c, ps[5]) {
      ContainsHead(c, '>', ">");
    }
    if exists j :: 0 <= j < |c| && DangerousChar(c[j]) {
      var j :| 0 <= j < |c| && DangerousChar(c[j]);
      assert c[j] in c;
    }
  }

  // ---------------------------------------------------------------------
  // _execute_with_shell_support

  /** The last component of a list of path segments, skipping empty and `.` segments as `pathlib` does. */
  function LastName(parts: seq<string>): (r: string)
    ensures r != "." && (|r| == 0 || r in parts)
    decreases |parts|
  {
    if |parts| == 0 then ""
    else
      var last := parts[|parts| - 1];
      if |last| == 0 || last == "." then LastName(parts[..|parts| - 1]) else last
  }

  /** `Path(p).name` for a POSIX path: the final component, `""` when there is none. */
  function Basename(p: string): (r: string)
    ensures '/' !in r && r != "."
  {
    var parts := Split(p, '/');
    var r := LastName(parts);
    assert |r| == 0 || r in parts;
    r
  }

  /** The final component of `dir/n` is `n`. */
  lemma BasenameOfPath(dir: string, n: string)
    requires |n| > 0 && n != "." && '/' !in n
    ensures Basename(dir + "/" + n) == n
  {
    var parts := Split(dir, '/') + [n];
    JoinAppend(Split(dir, '/'), [n], "/");
    assert Join([n], "/") == n;
    assert Join(parts, "/") == dir + "/" + n;
    SplitJoin(parts, '/');
    assert Split(dir + "/" + n, '/') == parts;
  }

  /** What a process invocation looks like: an argument vector, or a string run by `/bin/sh` (`shell=True`). */
  datatype Invocation = Argv(args: seq<string>) | ShellString(command: string)

  /** The text run before the command so that the shell's aliases are available. */
  function Prelude(shellName: string): string {
    if shellName == "bash" then "source ~/.bashrc 2>/dev/null; shopt -s expand_aliases; "
    else "source ~/.zshrc 2>/dev/null; "
  }

  /** The shell to use: `$SHELL`, or `/bin/sh` when it is not set. */
  function UserShell(env: Option<string>): string {
    env.GetOr("/bin/sh")
  }

  /**
   * `_execute_with_shell_support`: bash and zsh (recognised by the last
   * path component of the shell) run the command with `-c` after loading
   * their startup file; every other shell gets the command as it is.
   */
  function ShellInvocation(env: Option<string>, cmd: string): (r: Invocation)
    ensures r.Argv? <==> Basename(UserShell(env)) in {"bash", "zsh"}
    ensures r.ShellString? ==> r.command == cmd
    ensures r.Argv? ==>
      && |r.args| == 3 && r.args[0] == UserShell(env) && r.args[1] == "-c"
      && |cmd| <= |r.args[2]| && r.args[2][|r.args[2]| - |cmd|..] == cmd
      && r.args[2][..|r.args[2]| - |cmd|] == Prelude(Basename(UserShell(env)))
  {
    var shell := UserShell(env);
    var name := Basename(shell);
    if name == "bash" || name == "zsh" then
      var line := Prelude(name) + cmd;
      assert line[|Prelude(name)|..] == cmd && line[..|Prelude(name)|] == Prelude(name);
      Argv([shell, "-c", line])
    else
      ShellString(cmd)
  }

  /** Any shell installed as `.../bash` or `.../zsh` is recognised, wherever it lives. */
  lemma ShellFoundByName(dir: string, name: string, cmd: string)
    requires name == "bash" || name == "zsh"
    ensures ShellInvocation(Some(dir + "/" + name), cmd)
         == Argv([dir + "/" + name, "-c", Prelude(name) + cmd])
  {
    BasenameOfPath(dir, name);
  }

  /** Without `$SHELL` the command runs with `shell=True`, unchanged. */
  lemma DefaultShellRunsPlain(cmd: string)
    ensures ShellInvocation(None, cmd) == ShellString(cmd)
  {
    assert "/bin/sh" == "/bin" + "/" + "sh";
    BasenameOfPath("/bin", "sh");
  }
}

=== FILE: models.dfy ===
/**
 * The snippet data model (pypet/models.py): a `Parameter`, a `Snippet`
 * with the normalisation its constructor applies, and the dictionary
 * form both take in the TOML store.
 */
module Models {
  import opened Wrappers
  import opened Text
  import opened OrderedMap

  /** Timestamps are opaque instants; wall-clock reads and ISO-8601 text are not modelled. */
  type Time = nat

  /** Optional text as the source cleans it: `x.strip() if x else None`. */
  function NormalizeOptional(x: Option<string>): (r: Option<string>)
    ensures r.None? <==> (x.None? || |x.value| == 0)
    ensures r.Some? ==> r.value == Trim(x.value) && IsTrimmed(r.value)
  {
    if x.None? || |x.value| == 0 then None else Some(Trim(x.value))
  }

  /** What a second pass of `NormalizeOptional` does to already cleaned text: only `""` changes. */
  function EmptyToNone(x: Option<string>): Option<string> {
    if x.Some? && |x.value| == 0 then None else x
  }

  lemma NormalizeOptionalTwice(x: Option<string>)
    ensures NormalizeOptional(NormalizeOptional(x)) == EmptyToNone(NormalizeOptional(x))
  {
    if x.Some? && |x.value| != 0 {
      TrimIdempotent(x.value);
      assert NormalizeOptional(x) == Some(Trim(x.value));
    }
  }

  /** Cleaning text that is already trimmed only drops `""`. */
  lemma CleanedTwice(x: Option<string>)
    requires x.Some? ==> IsTrimmed(x.value)
    ensures NormalizeOptional(x) == EmptyToNone(x)
  {
    if x.Some? && |x.value| != 0 {
      TrimOfTrimmed(x.value);
      assert NormalizeOptional(x) == Some(Trim(x.value));
    }
  }

  // ---------------------------------------------------------------------
  // Parameter

  /** A named placeholder's metadata: no default means the value is required. */
  datatype Parameter = Parameter(name: string, default: Option<string>, description: Option<string>)

  /** The shape every constructed `Parameter` has: trimmed name and trimmed description. */
  predicate IsNormalParameter(p: Parameter) {
    IsTrimmed(p.name) && (p.description.Some? ==> IsTrimmed(p.description.value))
  }

  /** `Parameter(name, default, description)`: trims the name and the description, keeps the default. */
  function MakeParameter(name: string, default: Option<string>, description: Option<string>): (p: Parameter)
    ensures IsNormalParameter(p)
    ensures p.name == Trim(name)
    ensures p.default == default
    ensures p.description.None? <==> (description.None? || |description.value| == 0)
    ensures p.description.Some? ==> p.description.value == Trim(description.value)
  {
    Parameter(Trim(name), default, NormalizeOptional(description))
  }

  /** `Parameter.to_dict()`: exactly the keys `name`, `default` and `description`. */
  datatype ParamDict = ParamDict(name: string, default: Option<string>, description: Option<string>)

  function ParamToDict(p: Parameter): ParamDict {
    ParamDict(p.name, p.default, p.description)
  }

  /** `Parameter.from_dict(d)`: rebuilds through the constructor, so it normalises again. */
  function ParamFromDict(d: ParamDict): Parameter {
    MakeParameter(d.name, d.default, d.description)
  }

  /**
   * `from_dict` inverts `to_dict` on every constructed parameter, except
   * that a description that was whitespace only (and so stored as `""`)
   * comes back as `None`.
   */
  lemma ParamRoundTrip(p: Parameter)
    requires IsNormalParameter(p)
    ensures ParamFromDict(ParamToDict(p)) == p.(description := EmptyToNone(p.description))
  {
    TrimOfTrimmed(p.name);
    CleanedTwice(p.description);
  }

  // ---------------------------------------------------------------------
  // Tag clean-up

  /** Every entry of `ts`, stripped. */
  function TrimAll(ts: seq<string>): (r: seq<string>)
    ensures |r| == |ts|
    ensures forall i :: 0 <= i < |ts| ==> r[i] == Trim(ts[i])
  {
    seq(|ts|, i requires 0 <= i < |ts| => Trim(ts[i]))
  }

  /** `[t.strip() for t in tags if t and t.strip()]`. */
  function CleanTags(ts: seq<string>): seq<string> {
    if |ts| == 0 then []
    else
      var rest := CleanTags(ts[1..]);
      if |Trim(ts[0])| > 0 then [Trim(ts[0])] + rest else rest
  }

  /** The cleaned tags are exactly the non-empty stripped inputs. */
  lemma {:induction false} CleanTagsMembers(ts: seq<string>)
    ensures forall t :: t in CleanTags(ts) <==> t in TrimAll(ts) && |t| > 0
    decreases |ts|
  {
    if |ts| > 0 {
      assert TrimAll(ts) == [Trim(ts[0])] + TrimAll(ts[1..]);
      CleanTagsMembers(ts[1..]);
    }
  }

  /** Tags that are already clean pass through `CleanTags` unchanged. */
  lemma {:induction false} CleanTagsClean(ts: seq<string>)
    requires forall t :: t in ts ==> |t| > 0 && IsTrimmed(t)
    ensures CleanTags(ts) == ts
    decreases |ts|
  {
    if |ts| > 0 {
      var h, rest := ts[0], ts[1..];
      assert Trim(h) == h && |h| > 0 by {
        assert h in ts;
        TrimOfTrimmed(h);
      }
      assert forall t :: t in rest ==> |t| > 0 && IsTrimmed(t) by {
        assert forall t :: t in rest ==> t in ts;
      }
      CleanTagsClean(rest);
      assert ts == [h] + rest;
    }
  }

  /** The tag list `__post_init__` leaves: `None` becomes `[]`; blanks dropped, entries trimmed, duplicates removed. */
  function NormalizeTags(tags: Option<seq<string>>): (r: seq<string>)
    ensures tags.None? ==> r == []
    ensures forall t :: t in r ==> |t| > 0 && IsTrimmed(t)
    ensures NoDuplicates(r)
    ensures forall t :: t in r <==> tags.Some? && t in TrimAll(tags.value) && |t| > 0
  {
    match tags
    case None => []
    case Some(ts) =>
      CleanTagsMembers(ts);
      Dedup(CleanTags(ts))
  }

  /** Cleaning an already clean tag list changes nothing. */
  lemma TagsIdempotent(ts: seq<string>)
    requires forall t :: t in ts ==> |t| > 0 && IsTrimmed(t)
    requires NoDuplicates(ts)
    ensures NormalizeTags(Some(ts)) == ts
  {
    CleanTagsClean(ts);
    DedupNoDuplicates(ts);
  }

  /** The tags keep the order in which each first appears among the cleaned input. */
  lemma TagsFirstOccurrenceOrder(ts: seq<string>)
    ensures var r := NormalizeTags(Some(ts));
            forall i, j :: 0 <= i < j < |r| ==> FirstIndex(CleanTags(ts), r[i]) < FirstIndex(CleanTags(ts), r[j])
  {
    DedupOrder(CleanTags(ts));
  }

  // ---------------------------------------------------------------------
  // Snippet

  /** A stored command with its metadata; `parameters` is the declared name-to-`Parameter` map. */
  datatype Snippet = Snippet(
    command: string,
    description: Option<string>,
    tags: seq<string>,
    alias: Option<string>,
    parameters: Entries<string, Parameter>,
    createdAt: Time,
    updatedAt: Time)

  /** The constructor's arguments; `None` is Python's `None` or an omitted argument. */
  datatype Fields = Fields(
    command: Option<string>,
    description: Option<string>,
    tags: Option<seq<string>>,
    alias: Option<string>,
    parameters: Option<Entries<string, Parameter>>,
    createdAt: Option<Time>,
    updatedAt: Option<Time>)

  /** The shape `__post_init__` guarantees for every constructed snippet. */
  predicate Normalized(s: Snippet) {
    && IsTrimmed(s.command)
    && (s.description.Some? ==> IsTrimmed(s.description.value))
    && (s.alias.Some? ==> IsTrimmed(s.alias.value))
    && (forall t :: t in s.tags ==> |t| > 0 && IsTrimmed(t))
    && NoDuplicates(s.tags)
  }

  /**
   * `Snippet(...)` with `__post_init__`: trims the command (a missing one
   * becomes `""`, which is accepted), cleans description, alias and tags,
   * and fills missing timestamps from `now`.
   */
  function NewSnippet(f: Fields, now: Time): (s: Snippet)
    ensures Normalized(s)
    ensures f.command.None? ==> s.command == ""
    ensures f.command.Some? ==> s.command == Trim(f.command.value)
    ensures s.description == NormalizeOptional(f.description)
    ensures s.alias == NormalizeOptional(f.alias)
    ensures s.tags == NormalizeTags(f.tags)
    ensures f.createdAt.None? ==> s.createdAt == now
    ensures f.createdAt.Some? ==> s.createdAt == f.createdAt.value
    ensures f.updatedAt.None? ==> s.updatedAt == s.createdAt
    ensures f.updatedAt.Some? ==> s.updatedAt == f.updatedAt.value
    ensures f.parameters.Some? ==> s.parameters == f.parameters.value
    ensures f.parameters.None? ==> s.parameters == []
  {
    var created := f.createdAt.GetOr(now);
    Snippet(
      if f.command.None? || |f.command.value| == 0 then "" else Trim(f.command.value),
      NormalizeOptional(f.description),
      NormalizeTags(f.tags),
      NormalizeOptional(f.alias),
      f.parameters.GetOr([]),
      created,
      f.updatedAt.GetOr(created))
  }

  /** The constructor arguments that rebuild `s` field for field. */
  function FieldsOf(s: Snippet): Fields {
    Fields(Some(s.command), s.description, Some(s.tags), s.alias, Some(s.parameters),
           Some(s.createdAt), Some(s.updatedAt))
  }

  /**
   * Normalisation is idempotent, except that a description or alias that
   * was whitespace only (cleaned to `""`) is dropped to `None` by the
   * second pass.
   */
  lemma NormalizeIdempotent(s: Snippet, now: Time)
    requires Normalized(s)
    ensures NewSnippet(FieldsOf(s), now)
         == s.(description := EmptyToNone(s.description), alias := EmptyToNone(s.alias))
  {
    TrimOfTrimmed(s.command);
    CleanedTwice(s.description);
    CleanedTwice(s.alias);
    TagsIdempotent(s.tags);
  }

  // ---------------------------------------------------------------------
  // Dictionary form

  /** The record `to_dict` produces and `from_dict` reads; `None` is an absent (or null) key. */
  datatype Record = Record(
    command: string,
    description: Option<string>,
    tags: Option<seq<string>>,
    alias: Option<string>,
    parameters: Option<Entries<string, ParamDict>>,
    createdAt: Option<Time>,
    updatedAt: Option<Time>)

  function ParamsToDicts(ps: Entries<string, Parameter>): (ds: Entries<string, ParamDict>)
    ensures |ds| == |ps|
    ensures forall i :: 0 <= i < |ps| ==> ds[i] == (ps[i].0, ParamToDict(ps[i].1))
  {
    seq(|ps|, i requires 0 <= i < |ps| => (ps[i].0, ParamToDict(ps[i].1)))
  }

  function ParamsFromDicts(ds: Entries<string, ParamDict>): (ps: Entries<string, Parameter>)
    ensures |ps| == |ds|
    ensures forall i :: 0 <= i < |ds| ==> ps[i] == (ds[i].0, ParamFromDict(ds[i].1))
  {
    seq(|ds|, i requires 0 <= i < |ds| => (ds[i].0, ParamFromDict(ds[i].1)))
  }

  /** `Snippet.to_dict()`. */
  function ToDict(s: Snippet): Record {
    Record(s.command, s.description, Some(s.tags), s.alias, Some(ParamsToDicts(s.parameters)),
           Some(s.createdAt), Some(s.updatedAt))
  }

  /**
   * `Snippet.from_dict(d)`: rebuilds through the constructor; a missing
   * `tags` key reads as `[]` and missing dates take `now`, with the update
   * time equal to the creation time.
   */
  function FromDict(d: Record, now: Time): (s: Snippet)
    ensures Normalized(s)
    ensures d.tags.None? ==> s.tags == []
    ensures d.createdAt.None? ==> s.createdAt == now
    ensures d.updatedAt.None? ==> s.updatedAt == s.createdAt
    ensures d.createdAt.Some? ==> s.createdAt == d.createdAt.value
    ensures d.updatedAt.Some? ==> s.updatedAt == d.updatedAt.value
    ensures s.command == Trim(d.command)
    ensures s.description == NormalizeOptional(d.description)
    ensures s.alias == NormalizeOptional(d.alias)
    ensures d.tags.Some? ==> s.tags == NormalizeTags(d.tags)
    ensures d.parameters.None? ==> s.parameters == []
    ensures d.parameters.Some? ==> s.parameters == ParamsFromDicts(d.parameters.value)
  {
    NewSnippet(Fields(Some(d.command), d.description, Some(d.tags.GetOr([])), d.alias,
                      Some(ParamsFromDicts(d.parameters.GetOr([]))), d.createdAt, d.updatedAt), now)
  }

  /** Every declared parameter has the shape the `Parameter` constructor gives. */
  predicate ParamsNormal(ps: Entries<string, Parameter>) {
    forall i :: 0 <= i < |ps| ==> IsNormalParameter(ps[i].1)
  }

  /**
   * `from_dict(to_dict(s))` gives back `s` for every constructed snippet:
   * command, tags, timestamps and parameter names unchanged; descriptions
   * and alias unchanged unless they were `""`, which come back as `None`.
   */
  lemma DictRoundTrip(s: Snippet, now: Time)
    requires Normalized(s) && ParamsNormal(s.parameters)
    ensures var r := FromDict(ToDict(s), now);
            && r.command == s.command
            && r.tags == s.tags
            && r.createdAt == s.createdAt
            && r.updatedAt == s.updatedAt
            && r.description == EmptyToNone(s.description)
            && r.alias == EmptyToNone(s.alias)
            && Keys(r.parameters) == Keys(s.parameters)
            && forall i :: 0 <= i < |s.parameters| ==>
                 r.parameters[i].1 == s.parameters[i].1.(description := EmptyToNone(s.parameters[i].1.description))
  {
    var d := ToDict(s);
    var r := FromDict(d, now);
    TrimOfTrimmed(s.command);
    CleanedTwice(s.description);
    CleanedTwice(s.alias);
    TagsIdempotent(s.tags);
    assert r.parameters == ParamsFromDicts(ParamsToDicts(s.parameters));
    ParamsRoundTrip(s.parameters);
  }

  /** The parameter entries read back from their dictionaries: same keys, each parameter up to a `""` description. */
  lemma ParamsRoundTrip(ps: Entries<string, Parameter>)
    requires ParamsNormal(ps)
    ensures var r := ParamsFromDicts(ParamsToDicts(ps));
            && Keys(r) == Keys(ps)
            && forall i :: 0 <= i < |ps| ==> r[i].1 == ps[i].1.(description := EmptyToNone(ps[i].1.description))
  {
    var r := ParamsFromDicts(ParamsToDicts(ps));
    forall i | 0 <= i < |ps|
      ensures r[i].1 == ps[i].1.(description := EmptyToNone(ps[i].1.description))
    {
      ParamRoundTrip(ps[i].1);
    }
  }
}

=== FILE: ordered_map.dfy ===
/**
 * A Python `dict` as an association list: entries in insertion order,
 * assignment to an existing key keeps its position, assignment to a new
 * key appends, `del` removes the entry.
 */
module OrderedMap {
  import opened Wrappers

  type Entries<K, V> = seq<(K, V)>

  /** The keys in iteration order. */
  function Keys<K, V>(m: Entries<K, V>): (ks: seq<K>)
    ensures |ks| == |m|
    ensures forall i :: 0 <= i < |m| ==> ks[i] == m[i].0
  {
    seq(|m|, i requires 0 <= i < |m| => m[i].0)
  }

  /** Python's `k in m`. */
  predicate HasKey<K(==), V>(m: Entries<K, V>, k: K) {
    k in Keys(m)
  }

  /** No key occurs twice, as in every Python `dict`. */
  predicate UniqueKeys<K(==), V>(m: Entries<K, V>) {
    forall i, j :: 0 <= i < j < |m| ==> m[i].0 != m[j].0
  }

  /** The position of the first entry whose key is `k`. */
  function IndexOf<K(==), V>(m: Entries<K, V>, k: K): (i: nat)
    requires HasKey(m, k)
    ensures i < |m| && m[i].0 == k
    ensures forall j :: 0 <= j < i ==> m[j].0 != k
  {
    if m[0].0 == k then 0
    else
      assert Keys(m)[1..] == Keys(m[1..]);
      assert k in Keys(m[1..]);
      var i := IndexOf(m[1..], k);
      assert m[1..][i] == m[i + 1];
      i + 1
  }

  /** The first-index property pins `IndexOf` down. */
  lemma IndexOfUnique<K, V>(m: Entries<K, V>, k: K, i: nat)
    requires i < |m| && m[i].0 == k
    requires forall j :: 0 <= j < i ==> m[j].0 != k
    ensures HasKey(m, k) && IndexOf(m, k) == i
  {
    assert Keys(m)[i] == k;
  }

  /** Python's `m.get(k)`: the value stored under `k`, if any. */
  function Get<K(==), V>(m: Entries<K, V>, k: K): (r: Option<V>)
    ensures r.Some? <==> HasKey(m, k)
    ensures r.Some? ==> (k, r.value) in m
  {
    if HasKey(m, k) then Some(m[IndexOf(m, k)].1) else None
  }

  /** With unique keys, the value `Get` finds is the one stored. */
  lemma GetStored<K, V>(m: Entries<K, V>, i: nat)
    requires UniqueKeys(m) && i < |m|
    ensures Get(m, m[i].0) == Some(m[i].1)
  {
    IndexOfUnique(m, m[i].0, i);
  }

  /** Appending entries does not change what an existing key maps to. */
  lemma GetPrefix<K, V>(m: Entries<K, V>, n: nat, k: K)
    requires n <= |m| && HasKey(m[..n], k)
    ensures Get(m, k) == Get(m[..n], k)
  {
    var i := IndexOf(m[..n], k);
    assert m[..n][i] == m[i];
    IndexOfUnique(m, k, i);
  }

  /** Python's `m[k] = v`. */
  function Put<K(==, !new), V>(m: Entries<K, V>, k: K, v: V): (r: Entries<K, V>)
    ensures Get(r, k) == Some(v)
    ensures forall k' :: k' != k ==> Get(r, k') == Get(m, k')
    ensures HasKey(m, k) ==> Keys(r) == Keys(m)
    ensures !HasKey(m, k) ==> Keys(r) == Keys(m) + [k] && r == m + [(k, v)]
    ensures UniqueKeys(m) ==> UniqueKeys(r)
  {
    if HasKey(m, k) then
      var i := IndexOf(m, k);
      var r := m[i := (k, v)];
      assert Keys(r) == Keys(m);
      IndexOfUnique(r, k, i);
      forall k' | k' != k ensures Get(r, k') == Get(m, k') {
        if HasKey(m, k') {
          IndexOfUnique(r, k', IndexOf(m, k'));
        }
      }
      r
    else
      var r := m + [(k, v)];
      assert Keys(r) == Keys(m) + [k];
      IndexOfUnique(r, k, |m|);
      forall k' | k' != k ensures Get(r, k') == Get(m, k') {
        if HasKey(m, k') {
          IndexOfUnique(r, k', IndexOf(m, k'));
        }
      }
      r
  }

  /** Assigning a new key keeps the old entries as a prefix and adds just that key. */
  lemma PutFresh<K(!new), V>(m: Entries<K, V>, k: K, v: V)
    requires !HasKey(m, k)
    ensures |m| <= |Put(m, k, v)| && Put(m, k, v)[..|m|] == m
    ensures forall n :: HasKey(Put(m, k, v), n) <==> HasKey(m, n) || n == k
  {
    var r := Put(m, k, v);
    assert r[..|m|] == m;
    assert forall n :: HasKey(r, n) <==> n in Keys(m) + [k];
  }

  /** Python's `del m[k]` for a key that is present; an absent key leaves `m` alone. */
  function Remove<K(==, !new), V>(m: Entries<K, V>, k: K): (r: Entries<K, V>)
    ensures UniqueKeys(m) ==> !HasKey(r, k) && UniqueKeys(r)
    ensures forall k' :: k' != k ==> Get(r, k') == Get(m, k')
    ensures !HasKey(m, k) ==> r == m
    ensures HasKey(m, k) ==> |r| == |m| - 1 && r == m[..IndexOf(m, k)] + m[IndexOf(m, k) + 1..]
    ensures forall x :: x in r ==> x in m
  {
    if HasKey(m, k) then
      var i := IndexOf(m, k);
      var r := m[..i] + m[i + 1..];
      forall k' | k' != k ensures Get(r, k') == Get(m, k') {
        DropGet(m, i, k');
      }
      if UniqueKeys(m) then
        DropUnique(m, i);
        r
      else
        r
    else
      m
  }

  /** Dropping the entry at `i` leaves every other key's lookup alone. */
  lemma DropGet<K, V>(m: Entries<K, V>, i: nat, k': K)
    requires i < |m| && m[i].0 != k'
    ensures Get(m[..i] + m[i + 1..], k') == Get(m, k')
  {
    if HasKey(m, k') {
      DropGetPresent(m, i, k');
    } else {
      DropGetAbsent(m, i, k');
    }
  }

  /** The case of `DropGet` where `k'` is a key: its first entry moves down by at most one. */
  lemma DropGetPresent<K, V>(m: Entries<K, V>, i: nat, k': K)
    requires i < |m| && m[i].0 != k' && HasKey(m, k')
    ensures Get(m[..i] + m[i + 1..], k') == Get(m, k')
  {
    var r := m[..i] + m[i + 1..];
    var i' := IndexOf(m, k');
    var t := if i' < i then i' else i' - 1;
    assert forall j :: 0 <= j < |r| ==> r[j] == (if j < i then m[j] else m[j + 1]);
    assert r[t] == m[i'];
    IndexOfUnique(r, k', t);
  }

  /** The case of `DropGet` where `k'` is no key: dropping an entry adds none. */
  lemma DropGetAbsent<K, V>(m: Entries<K, V>, i: nat, k': K)
    requires i < |m| && !HasKey(m, k')
    ensures !HasKey(m[..i] + m[i + 1..], k')
  {
    var r := m[..i] + m[i + 1..];
    forall j | 0 <= j < |r| ensures r[j].0 != k' {
      var j' := if j < i then j else j + 1;
      assert r[j] == m[j'] && Keys(m)[j'] == m[j'].0;
    }
  }

  /** With unique keys, dropping the entry at `i` removes its key. */
  lemma DropUnique<K, V>(m: Entries<K, V>, i: nat)
    requires i < |m| && UniqueKeys(m)
    ensures !HasKey(m[..i] + m[i + 1..], m[i].0) && UniqueKeys(m[..i] + m[i + 1..])
  {
    var r := m[..i] + m[i + 1..];
    assert forall j :: 0 <= j < |r| ==> r[j] == (if j < i then m[j] else m[j + 1]);
  }

  /** The value of the last pair with key `k` in `kvs`, if any. */
  function LastValue<K(==), V>(kvs: seq<(K, V)>, k: K): Option<V> {
    if |kvs| == 0 then None
    else if kvs[|kvs| - 1].0 == k then Some(kvs[|kvs| - 1].1)
    else LastValue(kvs[..|kvs| - 1], k)
  }

  /**
   * Assigning the pairs of `kvs` one after the other, as a loop of
   * `m[k] = v` or `m.update(kvs)` does: the last assignment to a key wins.
   */
  function PutAll<K(==, !new), V>(m: Entries<K, V>, kvs: seq<(K, V)>): (r: Entries<K, V>)
    ensures forall k :: Get(r, k) == (if LastValue(kvs, k).Some? then LastValue(kvs, k) else Get(m, k))
    ensures forall k :: HasKey(r, k) <==> HasKey(m, k) || k in Keys(kvs)
    ensures UniqueKeys(m) ==> UniqueKeys(r)
    ensures Keys(m) <= Keys(r)
  {
    if |kvs| == 0 then m
    else
      var last := kvs[|kvs| - 1];
      var front := kvs[..|kvs| - 1];
      assert Keys(kvs) == Keys(front) + [last.0];
      var before := PutAll(m, front);
      Put(before, last.0, last.1)
  }

  /** Starting from an empty map, the pairs alone decide every lookup. */
  lemma PutAllFresh<K(!new), V>(kvs: seq<(K, V)>)
    ensures forall k :: Get(PutAll([], kvs), k) == LastValue(kvs, k)
    ensures forall k :: HasKey(PutAll([], kvs), k) <==> k in Keys(kvs)
    ensures UniqueKeys(PutAll([], kvs))
  {
    var e: Entries<K, V> := [];
    assert Keys(e) == [];
  }

  /** Applies `f` to every value, keeping keys and order. */
  function MapValues<K, V, W>(m: Entries<K, V>, f: V -> W): (r: Entries<K, W>)
    ensures |r| == |m|
    ensures forall i :: 0 <= i < |m| ==> r[i] == (m[i].0, f(m[i].1))
  {
    seq(|m|, i requires 0 <= i < |m| => (m[i].0, f(m[i].1)))
  }

  /** Mapping a map with one more entry appends that entry's image. */
  lemma MapValuesAppend<K, V, W>(m: Entries<K, V>, k: K, v: V, f: V -> W)
    ensures MapValues(m + [(k, v)], f) == MapValues(m, f) + [(k, f(v))]
  {
    assert forall i :: 0 <= i < |m| ==> (m + [(k, v)])[i] == m[i];
  }

  // ---------------------------------------------------------------------
  // list(dict.fromkeys(s)) and the key order of a dict

  /** No element occurs twice. */
  predicate NoDuplicates<T(==)>(s: seq<T>) {
    forall i, j :: 0 <= i < j < |s| ==> s[i] != s[j]
  }

  /** The index of the first occurrence of `x` in `s`. */
  function FirstIndex<T(==)>(s: seq<T>, x: T): (i: nat)
    requires x in s
    ensures i < |s| && s[i] == x
    ensures forall j :: 0 <= j < i ==> s[j] != x
  {
    if s[0] == x then 0 else 1 + FirstIndex(s[1..], x)
  }

  /** `list(dict.fromkeys(s))`: every element once, at its first occurrence. */
  function Dedup<T(==, !new)>(s: seq<T>): (r: seq<T>)
    ensures NoDuplicates(r)
    ensures forall x :: x in r <==> x in s
    ensures |r| <= |s|
  {
    if |s| == 0 then []
    else
      var r := Dedup(s[..|s| - 1]);
      var x := s[|s| - 1];
      assert s == s[..|s| - 1] + [x];
      if x in r then r else r + [x]
  }

  lemma FirstIndexExtend<T>(s: seq<T>, x: T, y: T)
    requires y in s
    ensures FirstIndex(s + [x], y) == FirstIndex(s, y)
  {
    var i := FirstIndex(s, y);
    var t := s + [x];
    assert t[i] == y;
  }

  /** `Dedup` keeps the input's first-occurrence order. */
  lemma {:induction false} DedupOrder<T(!new)>(s: seq<T>)
    ensures forall i, j :: 0 <= i < j < |Dedup(s)| ==> FirstIndex(s, Dedup(s)[i]) < FirstIndex(s, Dedup(s)[j])
    decreases |s|
  {
    if |s| > 0 {
      var s' := s[..|s| - 1];
      var x := s[|s| - 1];
      assert s == s' + [x];
      DedupOrder(s');
      var r' := Dedup(s');
      forall y | y in r' ensures FirstIndex(s, y) == FirstIndex(s', y) {
        FirstIndexExtend(s', x, y);
      }
      if x !in r' {
        assert FirstIndex(s, x) == |s'|;
      }
    }
  }

  /** A sequence without duplicates is its own `Dedup`. */
  lemma {:induction false} DedupNoDuplicates<T(!new)>(s: seq<T>)
    requires NoDuplicates(s)
    ensures Dedup(s) == s
    decreases |s|
  {
    if |s| > 0 {
      var s' := s[..|s| - 1];
      assert NoDuplicates(s');
      DedupNoDuplicates(s');
      assert s[|s| - 1] !in s';
      assert s == s' + [s[|s| - 1]];
    }
  }

  /** Deduplicating after appending an element already present changes nothing; a new one goes last. */
  lemma DedupSnoc<T(!new)>(u: seq<T>, x: T)
    ensures Dedup(u + [x]) == if x in u then Dedup(u) else Dedup(u) + [x]
  {
    assert (u + [x])[..|u|] == u;
  }

  /**
   * Assigning pairs in order keeps a key where it was first inserted:
   * the keys are those of `m`, then each new key of `kvs` once, in order
   * of first assignment.
   */
  lemma {:induction false} PutAllOrder<K(!new), V>(m: Entries<K, V>, kvs: seq<(K, V)>)
    requires UniqueKeys(m)
    ensures Keys(PutAll(m, kvs)) == Dedup(Keys(m) + Keys(kvs))
    decreases |kvs|
  {
    if |kvs| == 0 {
      assert Keys(m) + Keys(kvs) == Keys(m);
      DedupNoDuplicates(Keys(m));
    } else {
      var front := kvs[..|kvs| - 1];
      var last := kvs[|kvs| - 1];
      PutAllOrder(m, front);
      assert Keys(kvs) == Keys(front) + [last.0];
      assert Keys(m) + Keys(kvs) == (Keys(m) + Keys(front)) + [last.0];
      PutAllOrderStep(m, front, last);
    }
  }

  /** The step of `PutAllOrder`: one more pair. */
  lemma PutAllOrderStep<K(!new), V>(m: Entries<K, V>, front: seq<(K, V)>, last: (K, V))
    requires Keys(PutAll(m, front)) == Dedup(Keys(m) + Keys(front))
    ensures Keys(Put(PutAll(m, front), last.0, last.1)) == Dedup((Keys(m) + Keys(front)) + [last.0])
  {
    var u := Keys(m) + Keys(front);
    DedupSnoc(u, last.0);
    assert last.0 in u <==> HasKey(PutAll(m, front), last.0);
  }

  /** Starting from an empty map, the keys are those of the pairs, each once, in order of first assignment. */
  lemma PutAllFreshOrder<K(!new), V>(kvs: seq<(K, V)>)
    ensures Keys(PutAll([], kvs)) == Dedup(Keys(kvs))
  {
    var e: Entries<K, V> := [];
    PutAllOrder(e, kvs);
    assert Keys(e) + Keys(kvs) == Keys(kvs);
  }
}

=== FILE: storage.dfy ===
/**
 * The snippet store: the whole snippets file as an ordered table from
 * snippet ID to stored record. Every operation loads the table, works on
 * it and (when it changes anything) saves the whole table back; here an
 * operation takes the loaded table and returns the one to be saved. The
 * snippet ID and the current time are inputs.
 */
module Storage {
  import opened Wrappers
  import opened Text
  import opened OrderedMap
  import opened Models

  type Store = Entries<string, Record>

  /** `_load_snippets`: a missing or unparsable file (`None`) reads as an empty table. */
  function Load(file: Option<Store>): (st: Store)
    ensures file.Some? ==> st == file.value
    ensures file.None? ==> st == []
  {
    file.GetOr([])
  }

  // ---------------------------------------------------------------------
  // add_snippet

  /** The snippet `add_snippet` builds: normalised, no alias or parameters, both timestamps `now`. */
  function Created(command: string, description: Option<string>, tags: Option<seq<string>>, now: Time): (s: Snippet)
    ensures Normalized(s) && ParamsNormal(s.parameters)
    ensures s.command == Trim(command)
    ensures s.description == NormalizeOptional(description)
    ensures s.tags == NormalizeTags(tags)
    ensures s.alias.None? && s.parameters == []
    ensures s.createdAt == now && s.updatedAt == now
  {
    NewSnippet(Fields(Some(command), description, Some(tags.GetOr([])), None, None, None, None), now)
  }

  /**
   * `add_snippet`: stores the new snippet's record under `id`. An `id`
   * already present (two additions in the same microsecond) is overwritten
   * in place; a new one is appended.
   */
  function Add(st: Store, id: string, now: Time, command: string, description: Option<string>, tags: Option<seq<string>>): (r: Store)
    ensures Get(r, id) == Some(ToDict(Created(command, description, tags, now)))
    ensures forall k :: k != id ==> Get(r, k) == Get(st, k)
    ensures HasKey(st, id) ==> Keys(r) == Keys(st)
    ensures !HasKey(st, id) ==> r == st + [(id, ToDict(Created(command, description, tags, now)))]
    ensures UniqueKeys(st) ==> UniqueKeys(r)
  {
    var rec := ToDict(Created(command, description, tags, now));
    var r := Put(st, id, rec);
    assert Get(r, id) == Some(rec);
    assert !HasKey(st, id) ==> r == st + [(id, rec)];
    r
  }

  // ---------------------------------------------------------------------
  // get_snippet and list_snippets

  /**
   * `get_snippet`: rebuilds a snippet from the stored command, description
   * and tags only; alias and parameters are not read back, and both
   * timestamps are those of the lookup, not the stored ones.
   */
  function GetSnippet(st: Store, id: string, now: Time): (r: Option<Snippet>)
    ensures r.None? <==> !HasKey(st, id)
    ensures r.Some? ==> var d := Get(st, id).value;
      && r.value.command == Trim(d.command)
      && r.value.description == NormalizeOptional(d.description)
      && r.value.tags == NormalizeTags(Some(d.tags.GetOr([])))
      && r.value.alias.None? && r.value.parameters == []
      && r.value.createdAt == now && r.value.updatedAt == now
  {
    match Get(st, id)
    case None => None
    case Some(d) => Some(Created(d.command, d.description, Some(d.tags.GetOr([])), now))
  }

  /**
   * Reading back a snippet just added gives its normalised command and
   * tags; its description too, except that a whitespace-only one (stored
   * as `""`) now reads as `None`.
   */
  lemma GetAfterAdd(st: Store, id: string, t0: Time, now: Time, command: string, description: Option<string>, tags: Option<seq<string>>)
    ensures var r := GetSnippet(Add(st, id, t0, command, description, tags), id, now);
      && r.Some?
      && r.value.command == Trim(command)
      && r.value.description == EmptyToNone(NormalizeOptional(description))
      && r.value.tags == NormalizeTags(tags)
  {
    var c := Created(command, description, tags, t0);
    TrimIdempotent(command);
    CleanedTwice(c.description);
    TagsIdempotent(c.tags);
  }

  /** `list_snippets`: every entry in table order, each rebuilt through `from_dict`. */
  function ListSnippets(st: Store, now: Time): (r: seq<(string, Snippet)>)
    ensures |r| == |st|
    ensures forall i :: 0 <= i < |st| ==> r[i] == (st[i].0, FromDict(st[i].1, now))
    ensures forall i :: 0 <= i < |st| ==> Normalized(r[i].1)
  {
    MapValues(st, d => FromDict(d, now))
  }

  /** Adding under a new ID lists the new snippet after all earlier ones, which are unchanged. */
  lemma ListAfterAdd(st: Store, id: string, t0: Time, now: Time, command: string, description: Option<string>, tags: Option<seq<string>>)
    requires !HasKey(st, id)
    ensures ListSnippets(Add(st, id, t0, command, description, tags), now)
         == ListSnippets(st, now) + [(id, FromDict(ToDict(Created(command, description, tags, t0)), now))]
  {
    ListAppend(st, id, ToDict(Created(command, description, tags, t0)), now);
  }

  lemma ListAppend(st: Store, id: string, rec: Record, now: Time)
    ensures ListSnippets(st + [(id, rec)], now) == ListSnippets(st, now) + [(id, FromDict(rec, now))]
  {
    MapValuesAppend(st, id, rec, d => FromDict(d, now));
  }

  // ---------------------------------------------------------------------
  // search_snippets

  /**
   * The snippet matches the (already lower-cased) query: it occurs in the
   * lower-cased command, in a non-empty description, or in some tag.
   */
  predicate Matches(s: Snippet, q: string) {
    || Contains(Lower(s.command), q)
    || (s.description.Some? && |s.description.value| > 0 && Contains(Lower(s.description.value), q))
    || (exists t | t in s.tags :: Contains(Lower(t), q))
  }

  /** The entries of `xs` whose snippet matches `q`, in their order. */
  function Filter(xs: seq<(string, Snippet)>, q: string): (r: seq<(string, Snippet)>)
    ensures forall x :: x in r <==> x in xs && Matches(x.1, q)
    ensures |r| <= |xs|
  {
    if |xs| == 0 then []
    else if Matches(xs[0].1, q) then [xs[0]] + Filter(xs[1..], q)
    else Filter(xs[1..], q)
  }

  /** Filtering keeps the order of the listing: it distributes over concatenation. */
  lemma {:induction false} FilterAppend(xs: seq<(string, Snippet)>, ys: seq<(string, Snippet)>, q: string)
    ensures Filter(xs + ys, q) == Filter(xs, q) + Filter(ys, q)
    decreases |xs|
  {
    if |xs| == 0 {
      assert xs + ys == ys;
    } else {
      assert (xs + ys)[0] == xs[0];
      assert (xs + ys)[1..] == xs[1..] + ys;
      FilterAppend(xs[1..], ys, q);
    }
  }

  /** When every entry matches, nothing is filtered out. */
  lemma {:induction false} FilterAll(xs: seq<(string, Snippet)>, q: string)
    requires forall i :: 0 <= i < |xs| ==> Matches(xs[i].1, q)
    ensures Filter(xs, q) == xs
    decreases |xs|
  {
    if |xs| > 0 {
      assert Matches(xs[0].1, q);
      FilterAll(xs[1..], q);
    }
  }

  /** `search_snippets`: the listed entries matching the lower-cased query, in list order. */
  function Search(st: Store, query: string, now: Time): (r: seq<(string, Snippet)>)
    ensures forall x :: x in r <==> x in ListSnippets(st, now) && Matches(x.1, Lower(query))
  {
    Filter(ListSnippets(st, now), Lower(query))
  }

  /** The empty query matches every snippet. */
  lemma SearchEmptyQuery(st: Store, now: Time)
    ensures Search(st, "", now) == ListSnippets(st, now)
  {
    var xs := ListSnippets(st, now);
    forall i | 0 <= i < |xs| ensures Matches(xs[i].1, Lower("")) {
      EmptyContained(Lower(xs[i].1.command));
    }
    FilterAll(xs, Lower(""));
  }

  lemma LowerIdempotent(s: string)
    ensures Lower(Lower(s)) == Lower(s)
  {
  }

  /** Searching is case-insensitive in the query. */
  lemma SearchIgnoresQueryCase(st: Store, query: string, now: Time)
    ensures Search(st, Lower(query), now) == Search(st, query, now)
  {
    LowerIdempotent(query);
  }

  // ---------------------------------------------------------------------
  // update_snippet and delete_snippet

  /** The optional arguments of `update_snippet`; `None` leaves the field as it is. */
  datatype Changes = Changes(command: Option<string>, description: Option<string>, tags: Option<seq<string>>)

  /**
   * `update_snippet`: reports whether `id` exists; if it does, rebuilds the
   * snippet through `from_dict`, assigns the given fields as they are
   * (assignment does not normalise), stamps `updated_at` and stores the
   * record back at the same position.
   */
  function Update(st: Store, id: string, now: Time, c: Changes): (r: (bool, Store))
    ensures r.0 <==> HasKey(st, id)
    ensures !r.0 ==> r.1 == st
    ensures r.0 ==> Keys(r.1) == Keys(st)
    ensures forall k :: k != id ==> Get(r.1, k) == Get(st, k)
    ensures UniqueKeys(st) ==> UniqueKeys(r.1)
    ensures r.0 ==>
      var before := FromDict(Get(st, id).value, now);
      var d := Get(r.1, id).value;
      && d.command == c.command.GetOr(before.command)
      && d.description == (if c.description.Some? then c.description else before.description)
      && d.tags == Some(c.tags.GetOr(before.tags))
      && d.alias == before.alias
      && d.parameters == ToDict(before).parameters
      && d.createdAt == Some(Get(st, id).value.createdAt.GetOr(now))
      && d.updatedAt == Some(now)
  {
    match Get(st, id)
    case None => (false, st)
    case Some(d) =>
      var before := FromDict(d, now);
      var after := before.(
        command := c.command.GetOr(before.command),
        description := if c.description.Some? then c.description else before.description,
        tags := c.tags.GetOr(before.tags),
        updatedAt := now);
      (true, Put(st, id, ToDict(after)))
  }

  /**
   * The un-normalised fields an update stores are normalised again when
   * the snippet is next read back: the re-read snippet has the new command
   * and tags cleaned, keeps its creation time and carries the update time.
   */
  lemma UpdateReread(st: Store, id: string, now: Time, c: Changes, later: Time)
    requires HasKey(st, id)
    ensures var before := FromDict(Get(st, id).value, now);
      var s := FromDict(Get(Update(st, id, now, c).1, id).value, later);
      && s.command == Trim(c.command.GetOr(before.command))
      && s.tags == NormalizeTags(Some(c.tags.GetOr(before.tags)))
      && s.description == NormalizeOptional(if c.description.Some? then c.description else before.description)
      && s.createdAt == before.createdAt
      && s.updatedAt == now
  {
  }

  /** `delete_snippet`: reports whether `id` exists, and removes that entry only, keeping the order of the rest. */
  function Delete(st: Store, id: string): (r: (bool, Store))
    ensures r.0 <==> HasKey(st, id)
    ensures !r.0 ==> r.1 == st
    ensures r.0 ==> |r.1| == |st| - 1
    ensures UniqueKeys(st) ==> !HasKey(r.1, id) && UniqueKeys(r.1)
    ensures forall k :: k != id ==> Get(r.1, k) == Get(st, k)
    ensures r.0 ==> r.1 == st[..IndexOf(st, id)] + st[IndexOf(st, id) + 1..]
  {
    (HasKey(st, id), Remove(st, id))
  }

  /** Deleting a snippet just added under a new ID restores the table. */
  lemma DeleteUndoesAdd(st: Store, id: string, now: Time, command: string, description: Option<string>, tags: Option<seq<string>>)
    requires !HasKey(st, id)
    ensures Delete(Add(st, id, now, command, description, tags), id) == (true, st)
  {
    RemoveAppended(st, id, ToDict(Created(command, description, tags, now)));
  }

  lemma RemoveAppended(st: Store, id: string, rec: Record)
    requires !HasKey(st, id)
    ensures Remove(st + [(id, rec)], id) == st
  {
    var st' := st + [(id, rec)];
    assert Keys(st') == Keys(st) + [id];
    IndexOfUnique(st', id, |st|);
    assert st'[..|st|] == st;
  }
}

=== FILE: templating.dfy ===
/**
 * Parameter templating of snippet commands. A placeholder is `{name}`,
 * `{name=default}`, or either of these preceded by `$`; the name is a
 * non-empty run of characters other than `}` and `=`, the default a
 * (possibly empty) run of characters other than `}`. Placeholders are
 * found left to right without overlapping, as a regular-expression scan
 * for `\$?\{([^}=]+)(?:=([^}]*))?\}` finds them.
 */
module Templating {
  import opened Wrappers
  import opened Text
  import opened OrderedMap
  import opened Models

  /** A placeholder occupying `s[start..end]`. */
  datatype Placeholder = Placeholder(start: nat, end: nat, name: string, default: Option<string>)

  /** What may appear as a placeholder's name and inline default. */
  predicate WellFormed(name: string, default: Option<string>) {
    && |name| > 0 && '}' !in name && '=' !in name
    && (default.Some? ==> '}' !in default.value)
  }

  /** The text of a placeholder with the given parts. */
  function PlaceholderText(dollar: bool, name: string, default: Option<string>): string {
    (if dollar then "$" else "") + "{" + name + (if default.Some? then "=" + default.value else "") + "}"
  }

  /** The placeholder without `$` that starts at `j`, if one does. */
  function BraceAt(s: string, j: nat): (r: Option<Placeholder>)
    requires j <= |s|
    ensures r.Some? ==> r.value.start == j < r.value.end <= |s|
  {
    if j < |s| && s[j] == '{' then
      var k := Find(s, j + 1, {'}', '='});
      if k == j + 1 || k == |s| then None
      else if s[k] == '}' then Some(Placeholder(j, k + 1, s[j + 1..k], None))
      else
        var m := Find(s, k + 1, {'}'});
        if m == |s| then None
        else Some(Placeholder(j, m + 1, s[j + 1..k], Some(s[k + 1..m])))
    else
      None
  }

  /** The placeholder that starts at `i`, if one does; a leading `$` belongs to it. */
  function MatchAt(s: string, i: nat): (r: Option<Placeholder>)
    requires i <= |s|
    ensures r.Some? ==> r.value.start == i < r.value.end <= |s|
  {
    if i < |s| && s[i] == '$' then
      match BraceAt(s, i + 1)
      case Some(p) => Some(p.(start := i))
      case None => None
    else
      BraceAt(s, i)
  }

  /** The brace part of a placeholder: a well-formed one, spelled out in full. */
  lemma BraceAtSound(s: string, j: nat)
    requires j <= |s| && BraceAt(s, j).Some?
    ensures var p := BraceAt(s, j).value;
      && WellFormed(p.name, p.default)
      && s[j..p.end] == PlaceholderText(false, p.name, p.default)
  {
    var k := Find(s, j + 1, {'}', '='});
    if s[k] == '}' {
      BraceAtSoundPlain(s, j, k);
    } else {
      BraceAtSoundDefault(s, j, k, Find(s, k + 1, {'}'}));
    }
  }

  /** `{name}`: the name runs up to the first `}`. */
  lemma BraceAtSoundPlain(s: string, j: nat, k: nat)
    requires j < k < |s| && BraceAt(s, j).Some?
    requires k == Find(s, j + 1, {'}', '='}) && s[k] == '}'
    ensures BraceAt(s, j) == Some(Placeholder(j, k + 1, s[j + 1..k], None))
    ensures WellFormed(s[j + 1..k], None)
    ensures s[j..k + 1] == PlaceholderText(false, s[j + 1..k], None)
  {
    Bracketed(s, j, k);
  }

  /** `{name=default}`: the name runs up to the first `=`, the default from there to the first `}`. */
  lemma BraceAtSoundDefault(s: string, j: nat, k: nat, m: nat)
    requires j < k < |s| && BraceAt(s, j).Some?
    requires k == Find(s, j + 1, {'}', '='}) && s[k] != '}'
    requires k + 1 <= |s| && m == Find(s, k + 1, {'}'})
    ensures m < |s| && BraceAt(s, j) == Some(Placeholder(j, m + 1, s[j + 1..k], Some(s[k + 1..m])))
    ensures WellFormed(s[j + 1..k], Some(s[k + 1..m]))
    ensures s[j..m + 1] == PlaceholderText(false, s[j + 1..k], Some(s[k + 1..m]))
  {
    assert s[k] == '=' && s[m] == '}';
    Bracketed2(s, j, k, m);
  }

  lemma Bracketed(s: string, a: nat, b: nat)
    requires a < b < |s|
    ensures s[a..b + 1] == [s[a]] + s[a + 1..b] + [s[b]]
  {
  }

  lemma Bracketed2(s: string, a: nat, b: nat, c: nat)
    requires a < b < c < |s|
    ensures s[a..c + 1] == [s[a]] + s[a + 1..b] + [s[b]] + s[b + 1..c] + [s[c]]
  {
    var r := [s[a]] + s[a + 1..b] + [s[b]] + s[b + 1..c] + [s[c]];
    assert |r| == c + 1 - a;
    forall x | 0 <= x < |r| ensures r[x] == s[a + x] {
    }
  }

  /** A match is a well-formed placeholder spelled out in full. */
  lemma MatchAtSound(s: string, i: nat)
    requires i <= |s| && MatchAt(s, i).Some?
    ensures var p := MatchAt(s, i).value;
      && WellFormed(p.name, p.default)
      && s[i..p.end] == PlaceholderText(s[i] == '$', p.name, p.default)
  {
    if s[i] == '$' {
      BraceAtSound(s, i + 1);
      var p := BraceAt(s, i + 1).value;
      assert s[i..p.end] == "$" + s[i + 1..p.end];
    } else {
      BraceAtSound(s, i);
    }
  }

  /** `s[a..a + |u| + 1]` is `u` followed by a stop character, and `u` holds none. */
  lemma FindAfter(s: string, a: nat, u: string, c: char, stops: set<char>)
    requires a + |u| < |s| && s[a..a + |u| + 1] == u + [c]
    requires c in stops && forall x :: 0 <= x < |u| ==> u[x] !in stops
    ensures Find(s, a, stops) == a + |u| && s[a..a + |u|] == u && s[a + |u|] == c
  {
    var w := s[a..a + |u| + 1];
    forall x | a <= x < a + |u| ensures s[x] !in stops {
      assert s[x] == w[x - a] == u[x - a];
    }
    assert s[a + |u|] == w[|u|] == c;
    FindUnique(s, a, stops, a + |u|);
    assert s[a..a + |u|] == w[..|u|] == u;
  }

  lemma SliceOfSlice(s: string, j: nat, t: string, a: nat, b: nat)
    requires j + |t| <= |s| && s[j..j + |t|] == t && a <= b <= |t|
    ensures s[j + a..j + b] == t[a..b]
  {
    forall y | 0 <= y < b - a ensures s[j + a..j + b][y] == t[a..b][y] {
      assert s[j..j + |t|][a + y] == s[j + a + y];
    }
  }

  lemma MiddleSlice(x: string, y: string, z: string)
    ensures (x + y + z)[|x|..|x| + |y|] == y && (x + y + z)[|x| + |y|..] == z
  {
  }

  /** `BraceAt` once the first stop after the name is a closing brace. */
  lemma BraceAtClosed(s: string, j: nat, k: nat)
    requires j < |s| && s[j] == '{' && j + 1 < k < |s| && s[k] == '}'
    requires Find(s, j + 1, {'}', '='}) == k
    ensures BraceAt(s, j) == Some(Placeholder(j, k + 1, s[j + 1..k], None))
  {
  }

  /** `BraceAt` once the first stop after the name is `=` and a closing brace follows. */
  lemma BraceAtDefaulted(s: string, j: nat, k: nat, m: nat)
    requires j < |s| && s[j] == '{' && j + 1 < k < m < |s| && s[k] == '='
    requires Find(s, j + 1, {'}', '='}) == k && Find(s, k + 1, {'}'}) == m
    ensures BraceAt(s, j) == Some(Placeholder(j, m + 1, s[j + 1..k], Some(s[k + 1..m])))
  {
  }

  /** The brace part of a placeholder without a default, written at `j`, is found there. */
  lemma BraceAtCompletePlain(s: string, j: nat, name: string)
    requires WellFormed(name, None)
    requires j + |name| + 2 <= |s| && s[j..j + |name| + 2] == "{" + name + "}"
    ensures BraceAt(s, j) == Some(Placeholder(j, j + |name| + 2, name, None))
  {
    var t := "{" + name + "}";
    var k := j + 1 + |name|;
    assert s[j] == t[0] == '{';
    assert s[j + 1..k + 1] == t[1..] == name + "}";
    FindAfter(s, j + 1, name, '}', {'}', '='});
    BraceAtClosed(s, j, k);
  }

  /** The brace part of a placeholder with a default, written at `j`, is found there. */
  lemma BraceAtCompleteDefault(s: string, j: nat, name: string, d: string)
    requires WellFormed(name, Some(d))
    requires j + |name| + |d| + 3 <= |s| && s[j..j + |name| + |d| + 3] == "{" + (name + "=") + (d + "}")
    ensures BraceAt(s, j) == Some(Placeholder(j, j + |name| + |d| + 3, name, Some(d)))
  {
    var k := j + 1 + |name|;
    DefaultedPieces(s, j, name, d);
    FindAfter(s, j + 1, name, '=', {'}', '='});
    FindAfter(s, k + 1, d, '}', {'}'});
    BraceAtDefaulted(s, j, k, k + 1 + |d|);
  }

  /** Where the pieces of `{name=d}` sit once it is written at `j`. */
  lemma DefaultedPieces(s: string, j: nat, name: string, d: string)
    requires j + |name| + |d| + 3 <= |s| && s[j..j + |name| + |d| + 3] == "{" + (name + "=") + (d + "}")
    ensures s[j] == '{'
    ensures s[j + 1..j + 1 + |name| + 1] == name + "="
    ensures s[j + 1 + |name| + 1..j + 1 + |name| + 1 + |d| + 1] == d + "}"
  {
    var t := "{" + (name + "=") + (d + "}");
    var k := j + 1 + |name|;
    assert s[j] == t[0];
    MiddleSlice("{", name + "=", d + "}");
    SliceOfSlice(s, j, t, 1, k + 1 - j);
    SliceOfSlice(s, j, t, k + 1 - j, |t|);
  }

  /** The brace part of a placeholder written at `j` is found there. */
  lemma BraceAtComplete(s: string, j: nat, name: string, default: Option<string>)
    requires WellFormed(name, default)
    requires j + |PlaceholderText(false, name, default)| <= |s|
    requires s[j..j + |PlaceholderText(false, name, default)|] == PlaceholderText(false, name, default)
    ensures BraceAt(s, j) == Some(Placeholder(j, j + |PlaceholderText(false, name, default)|, name, default))
  {
    if default.None? {
      assert PlaceholderText(false, name, default) == "{" + name + "}";
      BraceAtCompletePlain(s, j, name);
    } else {
      assert PlaceholderText(false, name, default) == "{" + (name + "=") + (default.value + "}");
      BraceAtCompleteDefault(s, j, name, default.value);
    }
  }

  /** Every well-formed placeholder written at `i` is matched there, in full. */
  lemma MatchAtComplete(s: string, i: nat, dollar: bool, name: string, default: Option<string>)
    requires WellFormed(name, default)
    requires i + |PlaceholderText(dollar, name, default)| <= |s|
    requires s[i..i + |PlaceholderText(dollar, name, default)|] == PlaceholderText(dollar, name, default)
    ensures MatchAt(s, i) == Some(Placeholder(i, i + |PlaceholderText(dollar, name, default)|, name, default))
  {
    var u := PlaceholderText(false, name, default);
    if dollar {
      assert PlaceholderText(dollar, name, default) == "$" + u;
      DollarComplete(s, i, name, default, u);
    } else {
      assert PlaceholderText(dollar, name, default) == u;
      assert s[i] == '{';
      BraceAtComplete(s, i, name, default);
    }
  }

  /** The `$` case of `MatchAtComplete`: the brace part after the `$` is matched. */
  lemma DollarComplete(s: string, i: nat, name: string, default: Option<string>, u: string)
    requires WellFormed(name, default) && u == PlaceholderText(false, name, default)
    requires i + 1 + |u| <= |s| && s[i..i + 1 + |u|] == "$" + u
    ensures MatchAt(s, i) == Some(Placeholder(i, i + 1 + |u|, name, default))
  {
    var w := s[i..i + 1 + |u|];
    assert s[i] == w[0] == '$';
    assert s[i + 1..i + 1 + |u|] == w[1..] == u;
    BraceAtComplete(s, i + 1, name, default);
  }

  /** `{}` is not a placeholder: the name must not be empty. */
  lemma EmptyBracesIgnored(s: string, i: nat)
    requires i + 1 < |s| && s[i] == '{' && s[i + 1] == '}'
    ensures MatchAt(s, i).None?
  {
  }

  // ---------------------------------------------------------------------
  // Scanning

  /** `ps` lie within `[i, n)`, in order, without overlapping. */
  predicate Tiled(ps: seq<Placeholder>, i: nat, n: nat) {
    && (forall k :: 0 <= k < |ps| ==> i <= ps[k].start < ps[k].end <= n)
    && (forall a, b :: 0 <= a < b < |ps| ==> ps[a].end <= ps[b].start)
  }

  /** Position `j` lies inside one of `ps`. */
  predicate Covered(ps: seq<Placeholder>, j: nat) {
    exists k :: 0 <= k < |ps| && ps[k].start <= j < ps[k].end
  }

  lemma CoveredCons(p: Placeholder, rest: seq<Placeholder>, j: nat)
    ensures Covered([p] + rest, j) <==> (p.start <= j < p.end || Covered(rest, j))
  {
    var ps := [p] + rest;
    if Covered(rest, j) {
      var k :| 0 <= k < |rest| && rest[k].start <= j < rest[k].end;
      assert ps[k + 1] == rest[k];
    }
    if Covered(ps, j) && !(p.start <= j < p.end) {
      var k :| 0 <= k < |ps| && ps[k].start <= j < ps[k].end;
      assert rest[k - 1] == ps[k];
    }
    if p.start <= j < p.end {
      assert ps[0] == p;
    }
  }

  /** The placeholders of `s[i..]`, leftmost first and never overlapping. */
  function Scan(s: string, i: nat): (ps: seq<Placeholder>)
    requires i <= |s|
    ensures Tiled(ps, i, |s|)
    ensures forall k :: 0 <= k < |ps| ==> MatchAt(s, ps[k].start) == Some(ps[k])
    decreases |s| - i
  {
    if i == |s| then []
    else
      match MatchAt(s, i)
      case Some(p) => [p] + Scan(s, p.end)
      case None => Scan(s, i + 1)
  }

  /** No position of `s[i..]` that `ps` leaves uncovered starts a placeholder. */
  predicate NoneSkipped(s: string, i: nat, ps: seq<Placeholder>) {
    forall j :: i <= j < |s| && !Covered(ps, j) ==> MatchAt(s, j).None?
  }

  /** A match at `i` covers `[i, p.end)`; the positions after it are the tail's business. */
  lemma LeftmostAfterMatch(s: string, i: nat, p: Placeholder, rest: seq<Placeholder>)
    requires p.start == i < p.end
    requires NoneSkipped(s, p.end, rest)
    ensures NoneSkipped(s, i, [p] + rest)
  {
    forall j | i <= j < |s| && !Covered([p] + rest, j) ensures MatchAt(s, j).None? {
      CoveredCons(p, rest, j);
    }
  }

  /** A position that starts no placeholder adds nothing uncovered that starts one. */
  lemma LeftmostAfterMiss(s: string, i: nat, rest: seq<Placeholder>)
    requires i < |s| && MatchAt(s, i).None?
    requires NoneSkipped(s, i + 1, rest)
    ensures NoneSkipped(s, i, rest)
  {
  }

  /** A scan step over a match keeps the leftmost property of the rest of the scan. */
  lemma ScanHit(s: string, i: nat)
    requires i < |s| && MatchAt(s, i).Some?
    requires NoneSkipped(s, MatchAt(s, i).value.end, Scan(s, MatchAt(s, i).value.end))
    ensures NoneSkipped(s, i, Scan(s, i))
  {
    var p := MatchAt(s, i).value;
    var rest := Scan(s, p.end);
    assert Scan(s, i) == [p] + rest;
    LeftmostAfterMatch(s, i, p, rest);
  }

  /** A scan step over a position that starts nothing keeps the leftmost property. */
  lemma ScanMiss(s: string, i: nat)
    requires i < |s| && MatchAt(s, i).None?
    requires NoneSkipped(s, i + 1, Scan(s, i + 1))
    ensures NoneSkipped(s, i, Scan(s, i))
  {
    assert Scan(s, i) == Scan(s, i + 1);
    LeftmostAfterMiss(s, i, Scan(s, i + 1));
  }

  /** Where the scan resumes after position `i`. */
  function Next(s: string, i: nat): (k: nat)
    requires i < |s|
    ensures i < k <= |s|
  {
    if MatchAt(s, i).Some? then MatchAt(s, i).value.end else i + 1
  }

  /** One scan step keeps the leftmost property of the scan it resumes. */
  lemma ScanStepKeeps(s: string, i: nat)
    requires i < |s| && NoneSkipped(s, Next(s, i), Scan(s, Next(s, i)))
    ensures NoneSkipped(s, i, Scan(s, i))
  {
    if MatchAt(s, i).Some? {
      ScanHit(s, i);
    } else {
      ScanMiss(s, i);
    }
  }

  /** The scan skips no placeholder: every position it leaves uncovered starts none. */
  lemma {:induction false} ScanLeftmost(s: string, i: nat)
    requires i <= |s|
    ensures NoneSkipped(s, i, Scan(s, i))
    decreases |s| - i
  {
    if i < |s| {
      ScanLeftmost(s, Next(s, i));
      ScanStepKeeps(s, i);
    }
  }

  /** The placeholders of a command. */
  function Placeholders(s: string): (ps: seq<Placeholder>)
    ensures Tiled(ps, 0, |s|)
    ensures forall k :: 0 <= k < |ps| ==> MatchAt(s, ps[k].start) == Some(ps[k])
  {
    Scan(s, 0)
  }

  /** Text without a closing brace holds no placeholder. */
  lemma {:induction false} NoClosingBrace(s: string, i: nat)
    requires i <= |s| && '}' !in s
    ensures Scan(s, i) == []
    decreases |s| - i
  {
    if i < |s| {
      NoClosingBrace(s, i + 1);
    }
  }

  /** One placeholder between two runs of text that open none: the scan finds exactly that placeholder. */
  lemma SinglePlaceholder(a: string, name: string, default: Option<string>, z: string)
    requires '$' !in a && '{' !in a && '$' !in z && '{' !in z && WellFormed(name, default)
    ensures var u := PlaceholderText(false, name, default);
      Placeholders(a + u + z) == [Placeholder(|a|, |a| + |u|, name, default)]
  {
    var u := PlaceholderText(false, name, default);
    var s := a + u + z;
    var p := Placeholder(|a|, |a| + |u|, name, default);
    OuterSlices(a, u, z);
    MiddleSlice(a, u, z);
    MatchAtComplete(s, |a|, false, name, default);
    PlaceholderAt(s, |a|, p);
  }

  /** The text before and after the middle part. */
  lemma OuterSlices(x: string, y: string, z: string)
    ensures (x + y + z)[..|x|] == x && (x + y + z)[|x| + |y|..] == z
  {
  }

  /** A match with no opening character before or after it is the only placeholder. */
  lemma PlaceholderAt(s: string, i: nat, p: Placeholder)
    requires i <= p.end <= |s| && MatchAt(s, i) == Some(p)
    requires '$' !in s[..i] && '{' !in s[..i] && '$' !in s[p.end..] && '{' !in s[p.end..]
    ensures Placeholders(s) == [p]
  {
    assert s[0..i] == s[..i] && s[p.end..|s|] == s[p.end..];
    ScanSkipsRun(s, p.end, |s|);
    ScanSkipsRun(s, 0, i);
    assert Scan(s, |s|) == [];
    assert Scan(s, i) == [p] + Scan(s, p.end);
  }

  /** Only the outer braces count: `echo {outer{inner}}` holds one placeholder, named `outer{inner`. */
  lemma NestedBracesName(s: string)
    requires s == "echo {outer{inner}}"
    ensures Placeholders(s) == [Placeholder(5, 18, "outer{inner", None)]
  {
    NestedBracesText(s);
    SinglePlaceholder("echo ", "outer{inner", None, "}");
  }

  /**
   * `echo {x=}` holds one placeholder whose inline default is the empty
   * text; with nothing supplied, that empty default is its value.
   */
  lemma EmptyInlineDefault(s: string)
    requires s == "echo {x=}"
    ensures Placeholders(s) == [Placeholder(5, 9, "x", Some(""))]
    ensures ValueFor("x", Discovered(Placeholders(s)[0]), []) == Some("")
  {
    var u := PlaceholderText(false, "x", Some(""));
    assert u == "{x=}";
    assert s == "echo " + u + "";
    SinglePlaceholder("echo ", "x", Some(""), "");
  }

  /** `echo {outer{inner}}` spelled as text, a placeholder and a closing brace. */
  lemma NestedBracesText(s: string)
    requires s == "echo {outer{inner}}"
    ensures s == "echo " + PlaceholderText(false, "outer{inner", None) + "}"
    ensures |PlaceholderText(false, "outer{inner", None)| == 13
    ensures WellFormed("outer{inner", None) && '$' !in "echo " && '{' !in "echo " && '$' !in "}" && '{' !in "}"
  {
    assert PlaceholderText(false, "outer{inner", None) == "{outer{inner}";
    var t := "echo " + "{outer{inner}" + "}";
    assert |t| == |s|;
    forall k | 0 <= k < |s| ensures s[k] == t[k] {
    }
    assert '}' !in "outer{inner" && '=' !in "outer{inner";
  }

  /** A run of characters that open no placeholder is passed over. */
  lemma {:induction false} ScanSkipsRun(s: string, i: nat, j: nat)
    requires i <= j <= |s| && '$' !in s[i..j] && '{' !in s[i..j]
    ensures Scan(s, i) == Scan(s, j)
    decreases j - i
  {
    if i < j {
      assert s[i] == s[i..j][0];
      assert s[i + 1..j] == s[i..j][1..];
      ScanSkips(s, i);
      ScanSkipsRun(s, i + 1, j);
    }
  }

  /** A character that opens no placeholder is passed over. */
  lemma ScanSkips(s: string, i: nat)
    requires i < |s| && s[i] != '$' && s[i] != '{'
    ensures Scan(s, i) == Scan(s, i + 1)
  {
  }

  function Names(ps: seq<Placeholder>): (ns: seq<string>)
    ensures |ns| == |ps|
    ensures forall k :: 0 <= k < |ps| ==> ns[k] == ps[k].name
  {
    seq(|ps|, k requires 0 <= k < |ps| => ps[k].name)
  }

  // ---------------------------------------------------------------------
  // Parameters

  /**
   * The parameter a placeholder stands for when the snippet does not
   * declare it, built by the `Parameter` constructor: its name is stripped,
   * while the key it is stored under stays the placeholder's name.
   */
  function Discovered(p: Placeholder): (r: Parameter)
    ensures IsNormalParameter(r)
    ensures r.name == Trim(p.name) && r.default == p.default && r.description.None?
  {
    MakeParameter(p.name, p.default, None)
  }

  /** `acc` with a discovered parameter for `p` appended, unless its name is already there. */
  function Extend(acc: Entries<string, Parameter>, p: Placeholder): (r: Entries<string, Parameter>)
    ensures HasKey(acc, p.name) ==> r == acc
    ensures !HasKey(acc, p.name) ==> Keys(r) == Keys(acc) + [p.name] && Get(r, p.name) == Some(Discovered(p))
    ensures forall n :: HasKey(r, n) <==> HasKey(acc, n) || n == p.name
    ensures |acc| <= |r| && r[..|acc|] == acc
    ensures UniqueKeys(acc) ==> UniqueKeys(r)
  {
    if HasKey(acc, p.name) then acc
    else
      PutFresh(acc, p.name, Discovered(p));
      Put(acc, p.name, Discovered(p))
  }

  lemma NamesTail(ps: seq<Placeholder>)
    requires |ps| > 0
    ensures Names(ps) == [ps[0].name] + Names(ps[1..])
  {
  }

  /** Extends `acc` with a discovered parameter for each placeholder whose name is new. */
  function AddDiscovered(acc: Entries<string, Parameter>, ps: seq<Placeholder>): (r: Entries<string, Parameter>)
    ensures |acc| <= |r| && r[..|acc|] == acc
    ensures forall n :: HasKey(r, n) <==> HasKey(acc, n) || n in Names(ps)
    ensures UniqueKeys(acc) ==> UniqueKeys(r)
    decreases |ps|
  {
    if |ps| == 0 then acc
    else
      var acc' := Extend(acc, ps[0]);
      var r := AddDiscovered(acc', ps[1..]);
      DiscoveredFromHead(acc, ps, r);
      r
  }

  /** The step of `AddDiscovered`: what holds after the tail carries over to the whole. */
  lemma DiscoveredFromHead(acc: Entries<string, Parameter>, ps: seq<Placeholder>, r: Entries<string, Parameter>)
    requires |ps| > 0
    requires |Extend(acc, ps[0])| <= |r| && r[..|Extend(acc, ps[0])|] == Extend(acc, ps[0])
    requires forall n :: HasKey(r, n) <==> HasKey(Extend(acc, ps[0]), n) || n in Names(ps[1..])
    requires UniqueKeys(Extend(acc, ps[0])) ==> UniqueKeys(r)
    ensures |acc| <= |r| && r[..|acc|] == acc
    ensures forall n :: HasKey(r, n) <==> HasKey(acc, n) || n in Names(ps)
    ensures UniqueKeys(acc) ==> UniqueKeys(r)
  {
    var acc' := Extend(acc, ps[0]);
    PrefixOfPrefix(acc, acc', r);
    KeysFromHead(acc, acc', ps, r);
  }

  /** A prefix of a prefix is a prefix. */
  lemma PrefixOfPrefix<T>(a: seq<T>, b: seq<T>, c: seq<T>)
    requires |a| <= |b| && b[..|a|] == a
    requires |b| <= |c| && c[..|b|] == b
    ensures |a| <= |c| && c[..|a|] == a
  {
    assert c[..|a|] == c[..|b|][..|a|];
  }

  /** The keys after the tail are those of `acc`, the head's name, and the tail's names. */
  lemma KeysFromHead(acc: Entries<string, Parameter>, acc': Entries<string, Parameter>, ps: seq<Placeholder>, r: Entries<string, Parameter>)
    requires |ps| > 0
    requires forall n :: HasKey(acc', n) <==> HasKey(acc, n) || n == ps[0].name
    requires forall n :: HasKey(r, n) <==> HasKey(acc', n) || n in Names(ps[1..])
    ensures forall n :: HasKey(r, n) <==> HasKey(acc, n) || n in Names(ps)
  {
    NamesTail(ps);
  }

  /** The first occurrence after a different head is one further on in the tail. */
  lemma FirstIndexTail<T>(s: seq<T>, x: T)
    requires x in s && s[0] != x
    ensures x in s[1..] && FirstIndex(s, x) == 1 + FirstIndex(s[1..], x)
  {
  }

  /** A new name at the head of the placeholders is discovered from the head. */
  lemma AddDiscoveredHead(acc: Entries<string, Parameter>, ps: seq<Placeholder>, n: string)
    requires !HasKey(acc, n) && |ps| > 0 && ps[0].name == n
    ensures Get(AddDiscovered(acc, ps), n) == Some(Discovered(ps[0]))
  {
    var acc' := Extend(acc, ps[0]);
    var r := AddDiscovered(acc', ps[1..]);
    assert AddDiscovered(acc, ps) == r;
    assert r[..|acc'|] == acc';
    GetPrefix(r, |acc'|, n);
  }

  /**
   * A new name gets the default of the first placeholder that uses it, no
   * description, and the name stripped.
   */
  lemma {:induction false} AddDiscoveredFirst(acc: Entries<string, Parameter>, ps: seq<Placeholder>, n: string)
    requires !HasKey(acc, n) && n in Names(ps)
    ensures Get(AddDiscovered(acc, ps), n) == Some(Discovered(ps[FirstIndex(Names(ps), n)]))
    ensures Get(AddDiscovered(acc, ps), n).value.name == Trim(n)
    decreases |ps|
  {
    if ps[0].name == n {
      NamesTail(ps);
      assert FirstIndex(Names(ps), n) == 0;
      AddDiscoveredHead(acc, ps, n);
    } else {
      var acc' := Extend(acc, ps[0]);
      FirstPlaceholderTail(ps, n);
      AddDiscoveredFirst(acc', ps[1..], n);
    }
  }

  /** When the head does not use `n`, its first placeholder is the first one in the tail. */
  lemma FirstPlaceholderTail(ps: seq<Placeholder>, n: string)
    requires n in Names(ps) && ps[0].name != n
    ensures n in Names(ps[1..])
    ensures ps[FirstIndex(Names(ps), n)] == ps[1..][FirstIndex(Names(ps[1..]), n)]
  {
    NamesTail(ps);
    FirstIndexTail(Names(ps), n);
  }

  /** The names in `ns`, in order and with repeats, that `acc` does not declare. */
  function Undeclared(acc: Entries<string, Parameter>, ns: seq<string>): (r: seq<string>)
    ensures forall n :: n in r <==> n in ns && !HasKey(acc, n)
  {
    if |ns| == 0 then []
    else
      var n := ns[|ns| - 1];
      assert ns == ns[..|ns| - 1] + [n];
      Undeclared(acc, ns[..|ns| - 1]) + (if HasKey(acc, n) then [] else [n])
  }

  /** Discovering one more placeholder is one more `Extend`. */
  lemma {:induction false} AddDiscoveredSnoc(acc: Entries<string, Parameter>, ps: seq<Placeholder>, p: Placeholder)
    ensures AddDiscovered(acc, ps + [p]) == Extend(AddDiscovered(acc, ps), p)
    decreases |ps|
  {
    if |ps| > 0 {
      assert (ps + [p])[1..] == ps[1..] + [p];
      AddDiscoveredSnoc(Extend(acc, ps[0]), ps[1..], p);
    }
  }

  /** The names of placeholders with one more at the end. */
  lemma NamesSnoc(ps: seq<Placeholder>, p: Placeholder)
    ensures Names(ps + [p]) == Names(ps) + [p.name]
  {
    assert forall k :: 0 <= k < |ps| ==> (ps + [p])[k] == ps[k];
  }

  /**
   * Discovery appends to the keys of `acc` each undeclared placeholder
   * name once, in order of first appearance.
   */
  lemma {:induction false} AddDiscoveredOrder(acc: Entries<string, Parameter>, ps: seq<Placeholder>)
    ensures Keys(AddDiscovered(acc, ps)) == Keys(acc) + Dedup(Undeclared(acc, Names(ps)))
    decreases |ps|
  {
    if |ps| == 0 {
      assert Undeclared(acc, Names(ps)) == [];
    } else {
      var front := ps[..|ps| - 1];
      var p := ps[|ps| - 1];
      assert ps == front + [p];
      AddDiscoveredOrder(acc, front);
      AddDiscoveredSnoc(acc, front, p);
      NamesSnoc(front, p);
      var u := Undeclared(acc, Names(front));
      assert Names(front) + [p.name] == Names(ps);
      assert (Names(front) + [p.name])[..|Names(front)|] == Names(front);
      assert Undeclared(acc, Names(ps)) == u + (if HasKey(acc, p.name) then [] else [p.name]);
      AddDiscoveredStep(acc, front, p, u);
    }
  }

  /** The step of `AddDiscoveredOrder` for one more placeholder `p`. */
  lemma AddDiscoveredStep(acc: Entries<string, Parameter>, front: seq<Placeholder>, p: Placeholder, u: seq<string>)
    requires u == Undeclared(acc, Names(front))
    requires Keys(AddDiscovered(acc, front)) == Keys(acc) + Dedup(u)
    ensures Keys(Extend(AddDiscovered(acc, front), p))
         == Keys(acc) + Dedup(u + (if HasKey(acc, p.name) then [] else [p.name]))
  {
    var x := p.name;
    if HasKey(acc, x) {
      DiscoverDeclared(acc, front, p, u);
    } else if x in u {
      DiscoverRepeated(acc, front, p, u);
    } else {
      DiscoverNew(acc, front, p, u);
    }
  }

  /** A name the snippet declares adds nothing. */
  lemma DiscoverDeclared(acc: Entries<string, Parameter>, front: seq<Placeholder>, p: Placeholder, u: seq<string>)
    requires HasKey(acc, p.name)
    requires Keys(AddDiscovered(acc, front)) == Keys(acc) + Dedup(u)
    ensures Keys(Extend(AddDiscovered(acc, front), p)) == Keys(acc) + Dedup(u + [])
  {
    assert u + [] == u;
  }

  /** An undeclared name seen before adds nothing either. */
  lemma DiscoverRepeated(acc: Entries<string, Parameter>, front: seq<Placeholder>, p: Placeholder, u: seq<string>)
    requires u == Undeclared(acc, Names(front)) && p.name in u
    requires Keys(AddDiscovered(acc, front)) == Keys(acc) + Dedup(u)
    ensures Keys(Extend(AddDiscovered(acc, front), p)) == Keys(acc) + Dedup(u + [p.name])
  {
    assert p.name in Names(front);
    DedupSnoc(u, p.name);
  }

  /** An undeclared name seen for the first time is appended. */
  lemma DiscoverNew(acc: Entries<string, Parameter>, front: seq<Placeholder>, p: Placeholder, u: seq<string>)
    requires u == Undeclared(acc, Names(front)) && !HasKey(acc, p.name) && p.name !in u
    requires Keys(AddDiscovered(acc, front)) == Keys(acc) + Dedup(u)
    ensures Keys(Extend(AddDiscovered(acc, front), p)) == Keys(acc) + Dedup(u + [p.name])
  {
    var r := AddDiscovered(acc, front);
    assert p.name !in Names(front);
    assert !HasKey(r, p.name);
    DedupSnoc(u, p.name);
    AppendLast(Keys(acc), Dedup(u), p.name);
  }

  lemma AppendLast<T>(a: seq<T>, b: seq<T>, x: T)
    ensures a + b + [x] == a + (b + [x])
  {
  }

  /**
   * `get_all_parameters()`: the declared parameters first, unchanged, then
   * one discovered parameter for each placeholder name not declared, in
   * order of first appearance.
   */
  function GetAllParameters(s: Snippet): (all: Entries<string, Parameter>)
    ensures |s.parameters| <= |all| && all[..|s.parameters|] == s.parameters
    ensures forall n :: HasKey(all, n) <==> HasKey(s.parameters, n) || n in Names(Placeholders(s.command))
    ensures UniqueKeys(s.parameters) ==> UniqueKeys(all)
    ensures Keys(all) == Keys(s.parameters) + Dedup(Undeclared(s.parameters, Names(Placeholders(s.command))))
  {
    AddDiscoveredOrder(s.parameters, Placeholders(s.command));
    AddDiscovered(s.parameters, Placeholders(s.command))
  }

  /** What `get_all_parameters()` holds for each name. */
  lemma AllParametersLookup(s: Snippet, n: string)
    ensures HasKey(s.parameters, n) ==> Get(GetAllParameters(s), n) == Get(s.parameters, n)
    ensures !HasKey(s.parameters, n) && n in Names(Placeholders(s.command)) ==>
      Get(GetAllParameters(s), n)
        == Some(Discovered(Placeholders(s.command)[FirstIndex(Names(Placeholders(s.command)), n)]))
  {
    var all := GetAllParameters(s);
    if HasKey(s.parameters, n) {
      GetPrefix(all, |s.parameters|, n);
    } else if n in Names(Placeholders(s.command)) {
      AddDiscoveredFirst(s.parameters, Placeholders(s.command), n);
    }
  }

  // ---------------------------------------------------------------------
  // Applying values

  datatype TemplateError = MissingValue(name: string)

  /** The text of the `ValueError` raised for `e`. */
  function Message(e: TemplateError): string {
    "No value provided for required parameter: " + e.name
  }

  /** A non-empty value was supplied for `name`. */
  predicate Supplied(vals: Entries<string, string>, name: string) {
    Get(vals, name).Some? && |Get(vals, name).value| > 0
  }

  /** The value a parameter takes: the supplied one unless it is empty, else its default. */
  function ValueFor(name: string, p: Parameter, vals: Entries<string, string>): (r: Option<string>)
    ensures r.Some? <==> Supplied(vals, name) || p.default.Some?
    ensures r.Some? && !Supplied(vals, name) ==> r == p.default
  {
    if Supplied(vals, name) then Get(vals, name) else p.default
  }

  /** A supplied non-empty value wins over the default, and an empty one counts as not supplied. */
  lemma SuppliedWins(name: string, p: Parameter, vals: Entries<string, string>, v: string)
    ensures |v| > 0 ==> ValueFor(name, p, Put(vals, name, v)) == Some(v)
    ensures ValueFor(name, p, Put(vals, name, "")) == p.default
  {
  }

  /** The value the parameter called `name` in `all` takes, if there is one. */
  function ResolvedValue(all: Entries<string, Parameter>, vals: Entries<string, string>, name: string): Option<string> {
    match Get(all, name)
    case None => None
    case Some(p) => ValueFor(name, p, vals)
  }

  /** Entry `k` of `all` is the first one without a value. */
  predicate FirstMissing(all: Entries<string, Parameter>, vals: Entries<string, string>, k: int) {
    && 0 <= k < |all|
    && ValueFor(all[k].0, all[k].1, vals).None?
    && (forall j :: 0 <= j < k ==> ValueFor(all[j].0, all[j].1, vals).Some?)
  }

  /** Gives every parameter of `all` its value, in order, or names the first one that has none. */
  function Resolve(all: Entries<string, Parameter>, vals: Entries<string, string>): (r: Result<Entries<string, string>, TemplateError>)
    ensures r.Success? <==> forall k :: 0 <= k < |all| ==> ValueFor(all[k].0, all[k].1, vals).Some?
    ensures r.Success? ==> |r.value| == |all|
    ensures r.Success? ==> forall k :: 0 <= k < |all| ==>
      r.value[k] == (all[k].0, ValueFor(all[k].0, all[k].1, vals).value)
    ensures r.Failure? ==> exists k :: FirstMissing(all, vals, k) && r.error == MissingValue(all[k].0)
    decreases |all|
  {
    if |all| == 0 then Success([])
    else
      match ValueFor(all[0].0, all[0].1, vals)
      case None =>
        assert FirstMissing(all, vals, 0);
        Failure(MissingValue(all[0].0))
      case Some(v) =>
        match Resolve(all[1..], vals)
        case Failure(e) =>
          var k :| FirstMissing(all[1..], vals, k) && e == MissingValue(all[1..][k].0);
          assert FirstMissing(all, vals, k + 1);
          Failure(e)
        case Success(rest) =>
          Success([(all[0].0, v)] + rest)
  }

  /** On success the resolved entries answer every lookup as `ResolvedValue` does. */
  lemma ResolveLookup(all: Entries<string, Parameter>, vals: Entries<string, string>, n: string)
    requires Resolve(all, vals).Success?
    ensures Get(Resolve(all, vals).value, n) == ResolvedValue(all, vals, n)
  {
    var res := Resolve(all, vals).value;
    assert Keys(res) == Keys(all);
    if HasKey(all, n) {
      var i := IndexOf(all, n);
      IndexOfUnique(res, n, i);
    }
  }

  /**
   * Replaces each placeholder of `s[i..]` whose name `res` holds by that
   * value; other text, including placeholders `res` does not know, is kept.
   */
  function Substitute(s: string, i: nat, res: Entries<string, string>): string
    requires i <= |s|
    decreases |s| - i
  {
    if i == |s| then ""
    else
      match MatchAt(s, i)
      case Some(p) => Get(res, p.name).GetOr(s[i..p.end]) + Substitute(s, p.end, res)
      case None => [s[i]] + Substitute(s, i + 1, res)
  }

  /**
   * The reference result of applying values: the text between the tiled
   * placeholders `ps` verbatim, and each placeholder replaced by its
   * resolved value (or kept, when it has none).
   */
  function Spliced(s: string, i: nat, ps: seq<Placeholder>, all: Entries<string, Parameter>, vals: Entries<string, string>): string
    requires i <= |s| && Tiled(ps, i, |s|)
    decreases |ps|
  {
    if |ps| == 0 then s[i..]
    else
      var p := ps[0];
      s[i..p.start] + ResolvedValue(all, vals, p.name).GetOr(s[p.start..p.end])
        + Spliced(s, p.end, ps[1..], all, vals)
  }

  lemma SplicedStep(s: string, i: nat, ps: seq<Placeholder>, all: Entries<string, Parameter>, vals: Entries<string, string>)
    requires i < |s| && Tiled(ps, i + 1, |s|)
    ensures Spliced(s, i, ps, all, vals) == [s[i]] + Spliced(s, i + 1, ps, all, vals)
  {
    if |ps| == 0 {
      assert s[i..] == [s[i]] + s[i + 1..];
    } else {
      var p := ps[0];
      var v := ResolvedValue(all, vals, p.name).GetOr(s[p.start..p.end]);
      assert Tiled(ps[1..], p.end, |s|);
      var rest := Spliced(s, p.end, ps[1..], all, vals);
      assert Spliced(s, i, ps, all, vals) == s[i..p.start] + v + rest;
      assert Spliced(s, i + 1, ps, all, vals) == s[i + 1..p.start] + v + rest;
      ConsSlice(s, i, p.start, v, rest);
    }
  }

  lemma ConsSlice(s: string, i: nat, j: nat, v: string, rest: string)
    requires i < j <= |s|
    ensures s[i..j] + v + rest == [s[i]] + (s[i + 1..j] + v + rest)
  {
    assert s[i..j] == [s[i]] + s[i + 1..j];
  }

  /** One placeholder step of `SubstituteSpliced`. */
  lemma SubstituteMatched(s: string, i: nat, res: Entries<string, string>, all: Entries<string, Parameter>, vals: Entries<string, string>)
    requires i < |s| && MatchAt(s, i).Some?
    requires Get(res, MatchAt(s, i).value.name) == ResolvedValue(all, vals, MatchAt(s, i).value.name)
    requires Substitute(s, MatchAt(s, i).value.end, res)
          == Spliced(s, MatchAt(s, i).value.end, Scan(s, MatchAt(s, i).value.end), all, vals)
    ensures Substitute(s, i, res) == Spliced(s, i, Scan(s, i), all, vals)
  {
    var p := MatchAt(s, i).value;
    var ps := Scan(s, i);
    assert ps[0] == p && ps[1..] == Scan(s, p.end);
    var v := Get(res, p.name).GetOr(s[i..p.end]);
    assert Substitute(s, i, res) == v + Substitute(s, p.end, res);
    assert Spliced(s, i, ps, all, vals) == s[i..i] + v + Spliced(s, p.end, ps[1..], all, vals);
    assert s[i..i] + v == v;
  }

  /** One plain-character step of `SubstituteSpliced`. */
  lemma SubstituteUnmatched(s: string, i: nat, res: Entries<string, string>, all: Entries<string, Parameter>, vals: Entries<string, string>)
    requires i < |s| && MatchAt(s, i).None?
    requires Substitute(s, i + 1, res) == Spliced(s, i + 1, Scan(s, i + 1), all, vals)
    ensures Substitute(s, i, res) == Spliced(s, i, Scan(s, i), all, vals)
  {
    assert Scan(s, i) == Scan(s, i + 1);
    assert Substitute(s, i, res) == [s[i]] + Substitute(s, i + 1, res);
    SplicedStep(s, i, Scan(s, i + 1), all, vals);
  }

  /** One step of the substitution agrees with the reference splice, given agreement where it resumes. */
  lemma SubstituteStep(s: string, i: nat, res: Entries<string, string>, all: Entries<string, Parameter>, vals: Entries<string, string>)
    requires i < |s|
    requires forall n :: Get(res, n) == ResolvedValue(all, vals, n)
    requires Substitute(s, Next(s, i), res) == Spliced(s, Next(s, i), Scan(s, Next(s, i)), all, vals)
    ensures Substitute(s, i, res) == Spliced(s, i, Scan(s, i), all, vals)
  {
    if MatchAt(s, i).Some? {
      SubstituteMatched(s, i, res, all, vals);
    } else {
      SubstituteUnmatched(s, i, res, all, vals);
    }
  }

  /** The scanner computes the reference splice. */
  lemma {:induction false} SubstituteSpliced(s: string, i: nat, res: Entries<string, string>, all: Entries<string, Parameter>, vals: Entries<string, string>)
    requires i <= |s|
    requires forall n :: Get(res, n) == ResolvedValue(all, vals, n)
    ensures Substitute(s, i, res) == Spliced(s, i, Scan(s, i), all, vals)
    decreases |s| - i
  {
    if i < |s| {
      SubstituteSpliced(s, Next(s, i), res, all, vals);
      SubstituteStep(s, i, res, all, vals);
    }
  }

  /**
   * `apply_parameters(values)`: every parameter of `get_all_parameters()`
   * is resolved first, so a missing value fails even for a declared
   * parameter the command does not use; then each placeholder, with its
   * `$` and inline default, is replaced by its value.
   */
  function ApplyParameters(s: Snippet, vals: Entries<string, string>): (r: Result<string, TemplateError>)
    ensures var all := GetAllParameters(s);
      r.Success? <==> forall k :: 0 <= k < |all| ==> ValueFor(all[k].0, all[k].1, vals).Some?
    ensures var all := GetAllParameters(s);
      r.Failure? ==> exists k :: FirstMissing(all, vals, k) && r.error == MissingValue(all[k].0)
    ensures r.Success? ==>
      r.value == Spliced(s.command, 0, Placeholders(s.command), GetAllParameters(s), vals)
  {
    var all := GetAllParameters(s);
    match Resolve(all, vals)
    case Failure(e) => Failure(e)
    case Success(res) =>
      forall n ensures Get(res, n) == ResolvedValue(all, vals, n) {
        ResolveLookup(all, vals, n);
      }
      SubstituteSpliced(s.command, 0, res, all, vals);
      Success(Substitute(s.command, 0, res))
  }

  /** After a successful application every placeholder had a value, so none survives as text. */
  lemma ApplyFillsEveryPlaceholder(s: Snippet, vals: Entries<string, string>, k: nat)
    requires ApplyParameters(s, vals).Success? && k < |Placeholders(s.command)|
    ensures ResolvedValue(GetAllParameters(s), vals, Placeholders(s.command)[k].name).Some?
  {
    var all := GetAllParameters(s);
    var n := Placeholders(s.command)[k].name;
    assert Names(Placeholders(s.command))[k] == n;
    var i := IndexOf(all, n);
    assert ValueFor(all[i].0, all[i].1, vals).Some?;
  }

  /** A command without placeholders and with nothing declared is returned as it is. */
  lemma ApplyWithoutParameters(s: Snippet, vals: Entries<string, string>)
    requires Placeholders(s.command) == [] && s.parameters == []
    ensures ApplyParameters(s, vals) == Success(s.command)
  {
    assert GetAllParameters(s) == [];
  }
}

=== FILE: text.dfy ===
/**
 * The few Python `str` operations the program relies on: `strip()`,
 * `lower()`, `in` (substring test), `split(sep)`, `split(sep, 1)` and
 * `sep.join(parts)`, each on `seq<char>`.
 */
module Text {

  /** Python's `str.isspace()` for one character: the set `str.strip()` removes. */
  predicate IsSpace(c: char) {
    || c == ' ' || c == '\t' || c == '\n' || c == '\r'
    || ('\U{B}' <= c <= '\U{C}')
    || ('\U{1C}' <= c <= '\U{1F}')
    || c == '\U{85}' || c == '\U{A0}' || c == '\U{1680}'
    || ('\U{2000}' <= c <= '\U{200A}')
    || c == '\U{2028}' || c == '\U{2029}' || c == '\U{202F}'
    || c == '\U{205F}' || c == '\U{3000}'
  }

  predicate AllSpace(s: string) {
    forall i :: 0 <= i < |s| ==> IsSpace(s[i])
  }

  /** Neither end of `s` is whitespace: what `strip()` leaves behind. */
  predicate IsTrimmed(s: string) {
    |s| == 0 || (!IsSpace(s[0]) && !IsSpace(s[|s| - 1]))
  }

  /** `s.lstrip()`. */
  function TrimStart(s: string): (r: string)
    ensures |r| <= |s| && r == s[|s| - |r|..]
    ensures AllSpace(s[..|s| - |r|])
    ensures |r| > 0 ==> !IsSpace(r[0])
  {
    if |s| > 0 && IsSpace(s[0]) then TrimStart(s[1..]) else s
  }

  /** `s.rstrip()`. */
  function TrimEnd(s: string): (r: string)
    ensures |r| <= |s| && r == s[..|r|]
    ensures AllSpace(s[|r|..])
    ensures |r| > 0 ==> !IsSpace(r[|r| - 1])
  {
    if |s| > 0 && IsSpace(s[|s| - 1]) then TrimEnd(s[..|s| - 1]) else s
  }

  /** `s.strip()`: `s` with its leading and trailing whitespace removed. */
  function Trim(s: string): (r: string)
    ensures IsTrimmed(r)
  {
    TrimEnd(TrimStart(s))
  }

  /** `strip()` only removes whitespace, and only from the two ends. */
  lemma TrimShape(s: string)
    ensures exists a, b :: 0 <= a <= b <= |s| && Trim(s) == s[a..b] && AllSpace(s[..a]) && AllSpace(s[b..])
  {
    var t := TrimStart(s);
    var r := TrimEnd(t);
    var a := |s| - |t|;
    assert r == s[a..a + |r|];
    assert s[a + |r|..] == t[|r|..];
    assert AllSpace(s[..a]) && AllSpace(s[a + |r|..]);
  }

  lemma {:induction false} TrimStartSkips(p: string, t: string)
    requires AllSpace(p)
    ensures TrimStart(p + t) == TrimStart(t)
    decreases |p|
  {
    if |p| > 0 {
      assert (p + t)[0] == p[0] && IsSpace(p[0]);
      assert (p + t)[1..] == p[1..] + t;
      TrimStartSkips(p[1..], t);
    } else {
      assert p + t == t;
    }
  }

  lemma {:induction false} TrimEndSkips(t: string, q: string)
    requires AllSpace(q)
    ensures TrimEnd(t + q) == TrimEnd(t)
    decreases |q|
  {
    if |q| > 0 {
      assert (t + q)[|t + q| - 1] == q[|q| - 1] && IsSpace(q[|q| - 1]);
      assert (t + q)[..|t + q| - 1] == t + q[..|q| - 1];
      TrimEndSkips(t, q[..|q| - 1]);
    } else {
      assert t + q == t;
    }
  }

  /**
   * `strip()` is determined by its contract: whatever trimmed core sits
   * between two runs of whitespace is the result.
   */
  lemma TrimUnique(p: string, r: string, q: string)
    requires AllSpace(p) && AllSpace(q) && IsTrimmed(r)
    ensures Trim(p + r + q) == r
  {
    var s := p + r + q;
    assert s == p + (r + q);
    TrimStartSkips(p, r + q);
    if |r| > 0 {
      assert (r + q)[0] == r[0];
      assert TrimStart(r + q) == r + q;
      TrimEndSkips(r, q);
      assert TrimEnd(r) == r;
    } else {
      assert r + q == q && q == q + "";
      TrimStartSkips(q, "");
      assert TrimStart(q) == "";
    }
    assert Trim(s) == TrimEnd(TrimStart(s));
  }

  /** Stripping text that has no whitespace at either end changes nothing. */
  lemma TrimOfTrimmed(s: string)
    requires IsTrimmed(s)
    ensures Trim(s) == s
  {
    TrimUnique("", s, "");
    assert "" + s + "" == s;
  }

  /** Stripping twice is stripping once. */
  lemma TrimIdempotent(s: string)
    ensures Trim(Trim(s)) == Trim(s)
  {
    var r := Trim(s);
    TrimUnique("", r, "");
    assert "" + r + "" == r;
  }

  /** Python's `str.lower()` on one character, restricted to ASCII letters. */
  function LowerChar(c: char): char {
    if 'A' <= c <= 'Z' then (c as int - 'A' as int + 'a' as int) as char else c
  }

  function Lower(s: string): (r: string)
    ensures |r| == |s|
    ensures forall i :: 0 <= i < |s| ==> r[i] == LowerChar(s[i])
  {
    seq(|s|, i requires 0 <= i < |s| => LowerChar(s[i]))
  }

  /** `needle` occurs in `hay` starting at index `i`. */
  predicate OccursAt(hay: string, needle: string, i: int) {
    0 <= i <= |hay| - |needle| && hay[i..i + |needle|] == needle
  }

  /** Python's `needle in hay` for strings: `needle` occurs contiguously in `hay`. */
  predicate Contains(hay: string, needle: string) {
    exists i | 0 <= i <= |hay| - |needle| :: OccursAt(hay, needle, i)
  }

  lemma EmptyContained(hay: string)
    ensures Contains(hay, "")
  {
    assert OccursAt(hay, "", 0);
  }

  /** The first index at or after `i` whose character is in `stops`, or `|s|` when none is. */
  function Find(s: string, i: nat, stops: set<char>): (k: nat)
    requires i <= |s|
    ensures i <= k <= |s|
    ensures forall j :: i <= j < k ==> s[j] !in stops
    ensures k < |s| ==> s[k] in stops
    decreases |s| - i
  {
    if i == |s| || s[i] in stops then i else Find(s, i + 1, stops)
  }

  /** `Find` is pinned down by its contract. */
  lemma FindUnique(s: string, i: nat, stops: set<char>, k: nat)
    requires i <= k <= |s|
    requires forall j :: i <= j < k ==> s[j] !in stops
    requires k < |s| ==> s[k] in stops
    ensures Find(s, i, stops) == k
  {
  }

  /** Python's `s.split(sep, 1)`: the text before and after the first `sep`, if any. */
  function SplitOnce(s: string, sep: char): (r: Halves)
    ensures r.NotFound? <==> sep !in s
    ensures r.Found? ==> s == r.before + [sep] + r.after && sep !in r.before
  {
    var k := Find(s, 0, {sep});
    if k == |s| then
      NotFound
    else
      assert s == s[..k] + [sep] + s[k + 1..];
      Found(s[..k], s[k + 1..])
  }

  /** `SplitOnce` finds the first separator. */
  lemma SplitOnceAt(a: string, sep: char, b: string)
    requires sep !in a
    ensures SplitOnce(a + [sep] + b, sep) == Found(a, b)
  {
    var s := a + [sep] + b;
    assert s[|a|] == sep;
    forall j | 0 <= j < |a| ensures s[j] !in {sep} {
      assert s[j] == a[j];
    }
    FindUnique(s, 0, {sep}, |a|);
    assert s[..|a|] == a && s[|a| + 1..] == b;
  }

  /** The outcome of `SplitOnce`. */
  datatype Halves = NotFound | Found(before: string, after: string)

  /** Python's `sep.join(parts)`. */
  function Join(parts: seq<string>, sep: string): string
    decreases |parts|
  {
    if |parts| == 0 then ""
    else if |parts| == 1 then parts[0]
    else parts[0] + sep + Join(parts[1..], sep)
  }

  /** Python's `s.split(sep)` for a one-character separator: never empty, and joining undoes it. */
  function Split(s: string, sep: char): (parts: seq<string>)
    ensures |parts| >= 1
    ensures forall k :: 0 <= k < |parts| ==> sep !in parts[k]
    ensures Join(parts, [sep]) == s
    decreases |s|
  {
    var k := Find(s, 0, {sep});
    if k == |s| then
      [s]
    else
      var rest := Split(s[k + 1..], sep);
      assert ([s[..k]] + rest)[1..] == rest;
      assert s == s[..k] + [sep] + s[k + 1..];
      [s[..k]] + rest
  }

  /** A separator-free text is not split. */
  lemma SplitNone(a: string, sep: char)
    requires sep !in a
    ensures Split(a, sep) == [a]
  {
    FindUnique(a, 0, {sep}, |a|);
  }

  /** The first piece of a split is the text up to the first separator. */
  lemma SplitCons(a: string, sep: char, rest: string)
    requires sep !in a
    ensures Split(a + [sep] + rest, sep) == [a] + Split(rest, sep)
  {
    var s := a + [sep] + rest;
    SplitOnceAt(a, sep, rest);
    assert s[..|a|] == a && s[|a| + 1..] == rest;
  }

  /** Splitting a join of separator-free parts gives the parts back. */
  lemma {:induction false} SplitJoin(parts: seq<string>, sep: char)
    requires |parts| >= 1
    requires forall k :: 0 <= k < |parts| ==> sep !in parts[k]
    ensures Split(Join(parts, [sep]), sep) == parts
    decreases |parts|
  {
    if |parts| == 1 {
      SplitNone(parts[0], sep);
    } else {
      var tail := Join(parts[1..], [sep]);
      assert Join(parts, [sep]) == parts[0] + [sep] + tail;
      SplitCons(parts[0], sep, tail);
      SplitJoin(parts[1..], sep);
      assert [parts[0]] + parts[1..] == parts;
    }
  }

  /** Joining two non-empty runs of parts puts one separator between their joins. */
  lemma {:induction false} JoinAppend(a: seq<string>, b: seq<string>, sep: string)
    requires |a| > 0 && |b| > 0
    ensures Join(a + b, sep) == Join(a, sep) + sep + Join(b, sep)
    decreases |a|
  {
    if |a| == 1 {
      assert (a + b)[0] == a[0] && (a + b)[1..] == b;
    } else {
      assert (a + b)[0] == a[0] && (a + b)[1..] == a[1..] + b;
      JoinAppend(a[1..], b, sep);
    }
  }

  /** Joining a non-empty run followed by any parts: the second join follows a separator, if there is one. */
  lemma JoinThen(a: seq<string>, b: seq<string>, sep: string)
    requires |a| > 0
    ensures Join(a + b, sep) == Join(a, sep) + (if |b| == 0 then "" else sep + Join(b, sep))
  {
    if |b| > 0 {
      JoinAppend(a, b, sep);
    } else {
      assert a + b == a;
    }
  }

  /** Only the single empty part joins to the empty text. */
  lemma JoinEmpty(parts: seq<string>, sep: string)
    requires |parts| >= 1 && |sep| > 0
    ensures |Join(parts, sep)| == 0 <==> parts == [""]
  {
    if |parts| > 1 {
      assert Join(parts, sep) == parts[0] + sep + Join(parts[1..], sep);
    }
  }
}

=== FILE: wrappers.dfy ===
/** Failure-compatible Option and Result datatypes shared by every module. */
module Wrappers {

  /** A value that may be absent; stands for Python's `None`. */
  datatype Option<+T> = None | Some(value: T) {

    predicate IsFailure() {
      None?
    }

    function PropagateFailure<U>(): Option<U>
      requires None?
    {
      None
    }

    function Extract(): T
      requires Some?
    {
      value
    }

    /** The value, or `default` when absent. */
    function GetOr(default: T): T {
      match this
      case Some(v) => v
      case None => default
    }
  }

  /** Either a value or the error that prevented computing it. */
  datatype Result<+R, +E> = Success(value: R) | Failure(error: E) {

    predicate IsFailure() {
      Failure?
    }

    function PropagateFailure<U>(): Result<U, E>
      requires Failure?
    {
      Failure(error)
    }

    function Extract(): R
      requires Success?
    {
      value
    }
  }
}
